=== FILE: README.md ===
# DiscordAuthBot verification core, in Dafny

This project models the logic underneath DiscordAuthBot. DiscordAuthBot is a guild
verification bot. A member types their credentials into a login form. The bot checks them
against an external login API. On success it grants a "Verified" role, renames the member,
and stores a record keyed by (guild, member). An administrator can revoke a verification.

The model has one module per source file, plus helper modules:

- `Storage` (`storage.py`): the JSON data file is one nested document,
  `{"guilds": {gid: {"verified": {uid: record}, "lang": {uid: lang}}}}`. Here it is an
  immutable `Db` value, a `map<int, GuildEntry>`, and each `GuildEntry` holds two inner maps.
  `load_db` and `save_db` map a `DataFile` to a `Db` and back. `is_verified`, `mark_verified`
  and `revoke_verified` are pure functions from one `Db` to the next.
- `Prefs` (`prefs.py`): `set_lang` and `get_lang` work on the `"lang"` sub-map of the same `Db`.
- `I18n` (`i18n.py`): the message table as a constant map, plus `t`. `t` normalises the
  language tag, walks the fallback chain (requested language, then `en`, then `zh`, then the
  key itself) and substitutes placeholders. When substitution raises, `t` returns the raw
  template.
- `PyFormat`: the subset of Python's `str.format(**kwargs)` that the table relies on.
  It covers literal text, `{name}` fields and the `{{`/`}}` escapes. A template is parsed
  into pieces, then rendered. Each step fails where Python raises.
- `AuthApi` (`auth_api.py`): trailing slashes are stripped from the base URL, and the login
  URL is built from it. The response is normalised into a payload. `pick_username` and
  `is_success` read that payload.
- `AuthCommands` (`auth_commands.py`): the `/auth` commands as pure decision functions.
  The inputs are abstract: the guild and channel of the call, the roles, the store, and how
  each platform call ends. This covers `_truthy` parsing of environment variables, the
  ordered checks of `login`, the outcomes of submitting the form, the stages of
  `_grant_role_and_nick`, and the message that `revoke` composes. For each (guild, member)
  these functions form a small state machine. A member starts unverified. A successful
  check plus a clean role grant makes them verified. A revoke makes them unverified again.
- `JsonValue`, `Text`, `Wrappers`: JSON values and the Python builtins applied to them
  (truthiness, `str()`, `int()`, `strip()`, `lower()`, `rstrip("/")`), and `Option`/`Result`.

A verification record holds only `{"username": ...}`. It has no timestamp. The whole store
is one JSON file.

## Model

| member | source | states |
|---|---|---|
| Storage.LoadDb | src/authbot/storage.py:17-24 | A stored document loads as itself; a missing or unparsable file loads as `{"guilds": {}}`, in which nobody is verified |
| Storage.SaveDb | src/authbot/storage.py:27-39 | Loading what was saved gives back the same store |
| Storage.IsVerified | src/authbot/storage.py:47-49 | A member is verified exactly when the guild's `"verified"` map holds a record for them; in a guild missing from the store nobody is |
| Storage.MarkVerified | src/authbot/storage.py:52-58 | Upsert: afterwards (g, u) is verified with exactly the new record; every other (guild, user) keeps its record; no language preference changes; the guild's record count grows by one only for a new member |
| Storage.RevokeVerified | src/authbot/storage.py:61-72 | Returns true iff (g, u) had a record; afterwards it has none; when nothing was deleted the store is returned unchanged (no save); other records and all language maps are untouched; a deletion removes exactly one record |
| Storage.MarkTwiceKeepsLast | src/authbot/storage.py:52-58 | Marking twice equals marking once with the second record: re-verification replaces and never duplicates |
| Storage.RevokeIdempotent | src/authbot/storage.py:63-72 | A second revoke reports false and leaves the store as the first one left it |
| Storage.MarkThenRevoke | src/authbot/storage.py:52-72 | Revoking right after a mark reports a deletion and restores every other record to its state before the mark |
| Storage.RevokeInEmptyGuild | src/authbot/storage.py:63-65 | A missing or empty guild makes revoke report false and change nothing |
| Prefs.SetLang | src/authbot/prefs.py:6-12 | Afterwards `get_lang` returns the new language; other members and guilds read what they read before; the verification maps and `is_verified` are unchanged everywhere |
| Prefs.GetLang | src/authbot/prefs.py:15-20 | A member with no stored preference reads `"zh"` |
| Prefs.SetLangOverwrites | src/authbot/prefs.py:6-12 | A later `set_lang` for the same member overwrites the earlier one |
| Prefs.UnsetLangIsChinese | src/authbot/prefs.py:15-20 | In a missing or unparsable data file every member reads `"zh"` |
| Prefs.PerGuild | src/authbot/prefs.py:9-18 | Setting a language in guild g, including guild 0, does not change what any other guild reads |
| Prefs.MarkAndSetLangCommute | src/authbot/prefs.py:8-11 | Recording a verification and setting a language commute, for any two (guild, member) keys: the sibling sub-maps are independent |
| I18n.BeforeDash | src/authbot/i18n.py:116 | The result is the prefix of the tag up to, not including, its first `-` |
| I18n.NormalizeLang | src/authbot/i18n.py:116 | No tag, or an empty one, gives `"zh"`; otherwise the result is the tag's prefix before its first `-` |
| I18n.Template | src/authbot/i18n.py:117-118 | An unknown key yields the key itself; a known key yields its template in the requested language when that is `zh` or `en`, and its English template otherwise |
| I18n.Chain | src/authbot/i18n.py:118 | The `or` chain: the requested language's template when non-empty, else the English one when non-empty, else the Chinese one when non-empty, else the key; so the result is empty only for an empty key |
| I18n.TableComplete | src/authbot/i18n.py:7-112 | Every entry of the table has a non-empty `zh` and `en` template that does not start with a brace |
| I18n.KnownKeyUsesBundle | src/authbot/i18n.py:117-118 | A known key never falls back to the raw key |
| I18n.T | src/authbot/i18n.py:119-122 | When formatting the chosen template fails, `t` returns that template unformatted |
| I18n.MissingLangIsChinese | src/authbot/i18n.py:115-116 | No language and an empty language both render like `"zh"` |
| I18n.UnknownKeyIsItself | src/authbot/i18n.py:117-122 | An unknown key without braces renders as itself |
| I18n.NoPlaceholdersUnchanged | src/authbot/i18n.py:119-120 | A template without placeholders is returned unchanged whatever the arguments |
| I18n.MissingArgumentKeepsTemplate | src/authbot/i18n.py:119-122 | If some placeholder has no matching argument, `t` returns the raw template |
| I18n.AllArgumentsSubstituted | src/authbot/i18n.py:119-120 | If every placeholder has an argument, `t` returns the substituted text, and the template is recovered from its pieces |
| I18n.KnownKeyNonEmpty | src/authbot/i18n.py:115-122 | A message for a known key is never empty, so `if err:` in the login flow sees every failure |
| PyFormat.Format | src/authbot/i18n.py:120 | `template.format(**args)` succeeds exactly when the template parses and every field name has an argument |
| PyFormat.RenderDefined | src/authbot/i18n.py:120 | Substitution succeeds exactly when every field name has an argument; extra arguments are ignored |
| PyFormat.ParseThenUnparse | src/authbot/i18n.py:120 | Parsing a template loses nothing: its pieces print back to the template |
| PyFormat.UnparseThenParse | src/authbot/i18n.py:120 | Printing well-formed pieces and parsing the text gives the same pieces |
| PyFormat.BraceFreeFormatsToItself | src/authbot/i18n.py:120 | A template without braces formats to itself |
| Text.StripTrailingSlashes | src/authbot/auth_api.py:13 | The result is a prefix of the input, does not end in `/`, and everything cut off is `/` |
| AuthApi.NewClient | src/authbot/auth_api.py:12-14 | The stored base is the configured base minus its trailing slashes, and it does not end in `/` |
| AuthApi.LoginUrl | src/authbot/auth_api.py:18 | The URL is the stripped base followed by `/?action=login` |
| AuthApi.OneSlashBeforeQuery | src/authbot/auth_api.py:13-18 | For a client built from a configured base, exactly one slash precedes the query, and what comes before it is a prefix of the base |
| AuthApi.TrailingSlashesIgnored | src/authbot/auth_api.py:13-18 | Any number of extra trailing slashes on the base gives the same login URL |
| AuthApi.Normalize | src/authbot/auth_api.py:29-35 | A non-JSON body becomes `{"success": False, "status_code": status}`; an object body keeps every field, including its own `status_code`, and gains the HTTP status only when it lacks one; any other JSON value makes `setdefault` raise |
| AuthApi.DictGet | src/authbot/auth_api.py:42 | Python's `d.get(key, default)`: the value under the key or the default on a dictionary; any other value has no `get` and raises |
| AuthApi.PickUsernameAsWritten | src/authbot/auth_api.py:39-44 | The two chained `get` calls with the exception caught: a username is found only under a `user` object and is never null; without a `user` key there is none |
| AuthApi.PickUsername | src/authbot/auth_api.py:39-44 | Returns `payload["user"]["username"]` when `user` is an object with a non-null `username`, and None for every other shape; it never fails |
| AuthApi.PickUsernameMatchesSource | src/authbot/auth_api.py:39-44 | On every payload the closed form equals the source's `payload.get("user", {}).get("username")` under `try`/`except` returning None |
| AuthApi.NonJsonHasNoUsername | src/authbot/auth_api.py:29-44 | A non-JSON response yields no username |
| AuthApi.NormalizeKeepsUsername | src/authbot/auth_api.py:29-44 | Normalising an object body does not change the username it yields |
| AuthApi.ObjectBodyUsername | src/authbot/auth_api.py:29-44 | A body with `{"user": {"username": n}}`, n not null, yields n |
| AuthApi.StatusOf | src/authbot/auth_api.py:49 | A missing `status_code` reads as 0; an integer reads as itself; a boolean reads as 0 or 1; it raises exactly when `int()` rejects the value |
| AuthApi.IsSuccess | src/authbot/auth_api.py:47-50 | A success holds iff `int(status_code)` is 200 and `success` is truthy; a missing status reads as 0 and fails; status 200 succeeds iff `success` is truthy; any other integer status fails; it raises exactly when `int()` rejects the status |
| AuthApi.BooleanStatusNeverSucceeds | src/authbot/auth_api.py:49-50 | A boolean `status_code` reads as 0 or 1 and never succeeds |
| AuthApi.NonJsonNeverSucceeds | src/authbot/auth_api.py:29-35 | A non-JSON response is never a success, whatever its HTTP status |
| AuthApi.SuccessOfObjectBody | src/authbot/auth_api.py:29-50 | For an object body without `status_code`, success is HTTP 200 plus a truthy `success`; with one, the body's own status decides |
| AuthApi.StringStatusAccepted | src/authbot/auth_api.py:47-50 | A `status_code` sent as the string `"200"` counts as 200, even when the HTTP status is 500 |
| JsonValue.IntOfStrOfInt | src/authbot/auth_api.py:49 | `int()` of the decimal string of an integer gives back that integer |
| AuthCommands.EnvTruthy | src/authbot/auth_commands.py:19-22 | An unset value gives the default; the empty string is false |
| AuthCommands.DefaultOnlyWhenUnset | src/authbot/auth_commands.py:19-22 | For a set value the default does not matter |
| AuthCommands.TruthyIgnoresPaddingAndCase | src/authbot/auth_commands.py:22 | A value with whitespace padding is true iff its lower-cased word is one of `1`, `true`, `yes`, `y`, `on` |
| AuthCommands.TrimmedWordTruthy | src/authbot/auth_commands.py:22 | A set value without surrounding whitespace is true iff its lower-cased form is one of the truthy words, whatever the default |
| AuthCommands.ZeroIsFalse | src/authbot/auth_commands.py:22 | `"0"` is false even with a true default |
| AuthCommands.PaddedYesIsTrue | src/authbot/auth_commands.py:22 | `" Yes "` is true even with a false default |
| AuthCommands.FindRole | src/authbot/auth_commands.py:41 | The role looked up by name is None iff no role has that name, and otherwise is the first of the guild's roles with that name |
| AuthCommands.HoldsRole | src/authbot/auth_commands.py:184-185 | Holding the role by name implies some role of that name is among the member's roles; with no role of that name in the guild nobody holds it |
| AuthCommands.FirstOfDuplicates | src/authbot/auth_commands.py:184-185 | With two roles of the same name the lookup gives the first, so holding only the second does not count as holding the role |
| AuthCommands.Login | src/authbot/auth_commands.py:161-192 | The checks run in order and the first failure answers: no guild, wrong channel under the restriction, already verified, no API base; the form is shown iff all pass, with a client for the configured base; replies use the caller's language |
| AuthCommands.EitherSourceBlocks | src/authbot/auth_commands.py:182-187 | Holding the success role without a record, or a record without the role, is each enough to be already verified |
| AuthCommands.GrantFailure | src/authbot/auth_commands.py:36-64 | The grant completes iff there is a guild, the role exists or is created, and adding it succeeds |
| AuthCommands.GrantRoleAndNick | src/authbot/auth_commands.py:36-64 | Returns None iff the grant completes, and otherwise the non-empty translated message of the failing stage |
| AuthCommands.GrantStages | src/authbot/auth_commands.py:41-64 | A failed creation of a missing role gives `role_create_failed`; a Forbidden add gives `role_permission_denied`; any other add error gives `role_assign_failed` with its text; the nickname outcome never matters |
| AuthCommands.Exchange | src/authbot/auth_commands.py:215-220 | The login call fails exactly when the request raised or the body is JSON but not an object; the failure carries the exception's text |
| AuthCommands.ResolveUsername | src/authbot/auth_commands.py:231 | The name used is the picked username when that is truthy, else `"user"`, so it is always truthy |
| AuthCommands.OnSubmit | src/authbot/auth_commands.py:213-245 | A request exception, a rejected check and a failed grant never write the store; the store changes only on a clean grant with a write that succeeds, and then holds exactly the member's record; a failing write is swallowed and still reports success; a partial success carries exactly the grant's failure message as its problem; preferences never change |
| AuthCommands.SubmitReply | src/authbot/auth_commands.py:217-245 | A request exception gets `auth_request_failed` with its text; status 500 gets `auth_failed_500`, any other rejection `auth_failed_generic`; a failed grant gets `auth_partial_success` with the username and the problem; a verification gets `auth_success` with the username; nothing is sent after a crash; the reply is in the language it is given |
| AuthCommands.SubmitFollowUp | src/authbot/auth_commands.py:219-245 | The follow-up is the outcome's reply in the language stored for the member in the guild of the `/auth login` call, the same whether read before or after the store write; none is sent exactly after a crash |
| AuthCommands.Render | src/authbot/auth_commands.py:219-245 | A reply renders exactly when every argument has a scalar `str()` |
| AuthCommands.RenderOneArgument | src/authbot/auth_commands.py:219-245 | A reply with one scalar argument renders as `t` of the key with that argument's `str()` |
| AuthCommands.RenderTwoArguments | src/authbot/auth_commands.py:236 | A reply with two distinct scalar arguments renders as `t` of the key with both arguments' `str()` |
| AuthCommands.PartialReplyRendered | src/authbot/auth_commands.py:236 | The partial-success reply of a scalar username renders as the `auth_partial_success` text filled with the name and the problem |
| AuthCommands.FailedGrantReported | src/authbot/auth_commands.py:233-237 | After a successful check whose grant fails, the store is unchanged and the follow-up is the `auth_partial_success` text, in the member's stored language, with the username and the grant's own failure message |
| AuthCommands.RequestFailureReported | src/authbot/auth_commands.py:217-220 | A request exception leaves the store unchanged, and the follow-up renders as `auth_request_failed` with the exception's text in the member's stored language |
| AuthCommands.SwallowedWriteStillReportsSuccess | src/authbot/auth_commands.py:238-245 | After a clean grant whose store write fails, the store is unchanged and the follow-up is still `auth_success` with the username, in the member's stored language |
| AuthCommands.SuccessReplyRendered | src/authbot/auth_commands.py:245 | The success reply of a scalar username renders as the `auth_success` text filled with that name |
| AuthCommands.RejectionWritesNothing | src/authbot/auth_commands.py:222-229 | A rejected check, status 500 included, leaves the store exactly as it was |
| AuthCommands.ForbiddenGrantKeepsUnverified | src/authbot/auth_commands.py:233-237 | A successful check whose role assignment is forbidden reports the permission error and leaves the member unverified |
| AuthCommands.RevokeParts | src/authbot/auth_commands.py:281-285 | The report is `revoke_success`, then `revoke_role_removed` iff the role was removed, then `revoke_record_cleared` iff a record was deleted, in that order |
| AuthCommands.JoinWith | src/authbot/auth_commands.py:281-285 | The joined text starts with the first part's rendering |
| AuthCommands.PartsJoinedWith | src/authbot/auth_commands.py:281-285 | Joining the report parts gives the success line, then the role note iff the role was removed, then the record note iff a record was deleted |
| AuthCommands.RevokeText | src/authbot/auth_commands.py:281-285 | Without parts the report text is empty; with parts it starts with the first part rendered, and when that part is a table message it is non-empty |
| AuthCommands.RevokeMessage | src/authbot/auth_commands.py:281-285 | The message composed as the command does (success line with the mention, each note appended when it applies) equals the rendered report parts |
| AuthCommands.Revoke | src/authbot/auth_commands.py:253-287 | The role counts as removed iff it exists, the member holds it and removal succeeds; the record delete always runs and reports whether a record existed; the store after is exactly what `revoke_verified` leaves, so the member has no record, other records are untouched, and a store without the record is returned as it was; the message is the composed report in the administrator's language |
| AuthCommands.RevokeKeepsLanguages | src/authbot/auth_commands.py:270 | A revoke changes no member's language preference |
| AuthCommands.VerifiedMemberCannotLogInAgain | src/authbot/auth_commands.py:181-187 | After a verified submission whose write succeeds, a new login by that member is refused as already verified |
| AuthCommands.RevokedMemberMayLogInAgain | src/authbot/auth_commands.py:262-270 | After a revoke, a member without the success role may log in again |

## Left out

- File I/O in `storage.py` is not modelled: `_ensure_parent`, the temp-file-and-replace in `save_db`, `ensure_db_exists` and the `AUTH_DATA_FILE` lookup. The store is a value passed in and returned.
- Storage.LoadDb: the model assumes that a parsable file holds a document of the expected shape. A file that parses to some other JSON shape would make the Python operations raise, and those failures are not modelled.
- Prefs.GetLang: its `except` branch only guards against a malformed document, which the model does not represent.
- Concurrent handlers doing load-modify-save, and the lost updates that can follow, are not modelled. That is a concurrency matter, and the model is sequential.
- The HTTP call in `AuthAPI.login` is not modelled: the network, the timeout and logging. A call either raises (`CallRaised`) or yields a status and a body.
- JSON floating-point numbers are not modelled, and Python's `int()` on non-ASCII digits is not either. JSON numbers are integers here.
- AuthCommands.Render: a reply whose argument is a list or dictionary (a username sent as `["a"]`, say) gets no text here, whereas Python renders it with `str()`; the repr of containers is not modelled.
- PyFormat: format specs, conversions (`!r`), attribute and index access in fields, and nested fields are not modelled. The table uses only `{name}` fields.
- The discord.py surface is not modelled: `setup` with its role and channel creation and permission-overwrite loops, the modal and its text inputs, the `LangView` buttons (which only call `set_lang` and reply), ephemeral messaging, and the `setup_error`/`revoke_error` dispatch.
- The administrator permission check on `setup` and `revoke` is not modelled, since discord.py performs it before the command body runs.
- In `revoke`, adding the "Unverified" role back is not modelled. Its outcome is swallowed and affects neither the result nor the message.
- The member lookup (`get_member` or `fetch_member`) is assumed to succeed. Its failure would raise out of the handler.
- `main.py`, `commands.py` and `run.py` are not modelled. They hold bot construction, trivial ping/echo/help commands and path setup.

=== FILE: auth_api.dfy ===
/** The client of the external login API: URL construction, normalisation of the HTTP
    response into a payload dictionary, and the two pure readers of that payload. */
module AuthApi {
  import opened Wrappers
  import opened Text
  import opened JsonValue

  /** `AuthAPI(base_url)`: keeps the base without trailing slashes. */
  datatype Client = Client(baseUrl: string)

  const LoginQuery: string := "/?action=login"

  function NewClient(base: string): (c: Client)
    ensures c.baseUrl <= base
    ensures c.baseUrl == [] || c.baseUrl[|c.baseUrl| - 1] != '/'
    ensures forall i :: |c.baseUrl| <= i < |base| ==> base[i] == '/'
  {
    Client(StripTrailingSlashes(base))
  }

  /** The URL `login` posts to: the client's base, then `/?action=login`. */
  function LoginUrl(c: Client): (url: string)
    ensures |url| >= |LoginQuery| && url[|url| - |LoginQuery|..] == LoginQuery
    ensures url[..|url| - |LoginQuery|] == c.baseUrl
  {
    c.baseUrl + LoginQuery
  }

  /** For a client built from a configured base, the query follows exactly one slash, and what
      precedes that slash is the base up to its trailing slashes. */
  lemma OneSlashBeforeQuery(base: string)
    ensures var url := LoginUrl(NewClient(base));
      var b := |url| - |LoginQuery|;
      && url[b] == '/'
      && (b == 0 || url[b - 1] != '/')
      && url[..b] <= base
  {
    var c := NewClient(base);
    var url := LoginUrl(c);
    assert url[..|url| - |LoginQuery|] == c.baseUrl;
    if c.baseUrl != [] {
      assert url[|c.baseUrl| - 1] == c.baseUrl[|c.baseUrl| - 1];
    }
  }

  /** Extra trailing slashes on the configured base do not change the URL. */
  lemma {:induction false} TrailingSlashesIgnored(base: string, slashes: nat)
    ensures LoginUrl(NewClient(base + seq(slashes, _ => '/'))) == LoginUrl(NewClient(base))
    decreases slashes
  {
    if slashes > 0 {
      var s := base + seq(slashes, _ => '/');
      var shorter := base + seq(slashes - 1, _ => '/');
      assert s[|s| - 1] == '/';
      assert s[..|s| - 1] == shorter;
      assert StripTrailingSlashes(s) == StripTrailingSlashes(shorter);
      TrailingSlashesIgnored(base, slashes - 1);
    } else {
      assert base + seq(0, _ => '/') == base;
    }
  }

  /** The decoded response body handed to `login`'s normalisation. */
  datatype Body = NotJson | JsonBody(value: Json)

  /** What awaiting `login` produced: an exception from the HTTP exchange (network error,
      timeout), or a response with its status and body. */
  datatype Call = CallRaised(error: string) | Responded(status: int, body: Body)

  type Payload = map<string, Json>

  /** The normalisation step of `login`: a non-JSON body becomes `{"success": False}`, and the HTTP
      status is added as `status_code` only when the body has none. A JSON body that is not an
      object has no `setdefault`, so the call raises `AttributeError`. */
  function Normalize(status: int, body: Body): (r: Result<Payload>)
    ensures r.Ok? <==> body.NotJson? || body.value.JObj?
    ensures r.Ok? ==> "status_code" in r.value
    ensures body.NotJson? ==> r.value == map["success" := JBool(false), "status_code" := JNum(status)]
    ensures body.JsonBody? && body.value.JObj? ==>
      && r.value.Keys == body.value.fields.Keys + {"status_code"}
      && (forall k :: k in body.value.fields ==> r.value[k] == body.value.fields[k])
      && ("status_code" !in body.value.fields ==> r.value["status_code"] == JNum(status))
    ensures r.Err? ==> r.error == "'" + TypeName(body.value) + "' object has no attribute 'setdefault'"
  {
    match body
    case NotJson => Ok(map["success" := JBool(false), "status_code" := JNum(status)])
    case JsonBody(JObj(fields)) =>
      Ok(if "status_code" in fields then fields else fields["status_code" := JNum(status)])
    case JsonBody(j) => Err("'" + TypeName(j) + "' object has no attribute 'setdefault'")
  }

  /** Python's `d.get(key, default)`: the value under `key`, or `default` when there is none;
      on anything but a dictionary there is no `get` and the call raises `AttributeError`. */
  function DictGet(d: Json, key: string, default: Json): (r: Result<Json>)
    ensures r.Ok? <==> d.JObj?
    ensures d.JObj? && key in d.fields ==> r == Ok(d.fields[key])
    ensures d.JObj? && key !in d.fields ==> r == Ok(default)
  {
    if d.JObj? then Ok(if key in d.fields then d.fields[key] else default)
    else Err("'" + TypeName(d) + "' object has no attribute 'get'")
  }

  /** `pick_username` as the source writes it: `payload.get("user", {}).get("username")` under a
      `try` whose `except` returns `None`. A JSON `null` under `username` is Python's `None` too. */
  function PickUsernameAsWritten(p: Payload): (r: Option<Json>)
    ensures r.Some? ==> r.value != JNull && "user" in p && p["user"].JObj?
    ensures "user" !in p ==> r.None?
  {
    match DictGet(JObj(p), "user", JObj(map[]))
    case Err(_) => None
    case Ok(user) =>
      match DictGet(user, "username", JNull)
      case Err(_) => None
      case Ok(v) => if v == JNull then None else Some(v)
  }

  /** `pick_username`: `payload["user"]["username"]` when `user` is an object holding a
      non-null `username`; `None` (never an exception) for every other shape. */
  function PickUsername(p: Payload): (r: Option<Json>)
    ensures r.Some? <==> "user" in p && p["user"].JObj? && "username" in p["user"].fields && p["user"].fields["username"] != JNull
    ensures r.Some? ==> r.value == p["user"].fields["username"]
  {
    if "user" in p && p["user"].JObj? && "username" in p["user"].fields && p["user"].fields["username"] != JNull
    then Some(p["user"].fields["username"])
    else None
  }

  /** The closed form of `pick_username` agrees with the source's chained lookups on every payload. */
  lemma PickUsernameMatchesSource(p: Payload)
    ensures PickUsername(p) == PickUsernameAsWritten(p)
  {
    var user := if "user" in p then p["user"] else JObj(map[]);
    assert DictGet(JObj(p), "user", JObj(map[])) == Ok(user);
  }

  /** A non-JSON response carries no username. */
  lemma NonJsonHasNoUsername(status: int)
    ensures PickUsername(Normalize(status, NotJson).value).None?
  {
  }

  /** Normalising an object body leaves its username where it was: `pick_username` reads the
      same from the payload as from the body. */
  lemma NormalizeKeepsUsername(status: int, fields: map<string, Json>)
    ensures PickUsername(Normalize(status, JsonBody(JObj(fields))).value) == PickUsername(fields)
  {
    var p := Normalize(status, JsonBody(JObj(fields))).value;
    assert "user" in p <==> "user" in fields;
    if "user" in fields {
      assert p["user"] == fields["user"];
    }
  }

  /** A body `{"user": {"username": n}}` with a non-null `n`, whatever else it holds, yields `n`. */
  lemma ObjectBodyUsername(status: int, fields: map<string, Json>, n: Json)
    requires n != JNull
    ensures var body := fields["user" := JObj(map["username" := n])];
      PickUsername(Normalize(status, JsonBody(JObj(body))).value) == Some(n)
  {
    NormalizeKeepsUsername(status, fields["user" := JObj(map["username" := n])]);
  }

  /** `int(payload.get("status_code", 0))`; `None` is the exception `int()` raises. */
  function StatusOf(p: Payload): (r: Option<int>)
    ensures "status_code" !in p ==> r == Some(0)
    ensures "status_code" in p && p["status_code"].JNum? ==> r == Some(p["status_code"].n)
    ensures "status_code" in p && p["status_code"].JBool? ==> r == Some(if p["status_code"].b then 1 else 0)
    ensures r.None? <==> "status_code" in p && ToInt(p["status_code"]).None?
  {
    ToInt(if "status_code" in p then p["status_code"] else JNum(0))
  }

  /** `is_success`: status 200 and a truthy `success`; `None` when reading the status raises.
      A payload without `status_code` reads as status 0 and so never succeeds. */
  function IsSuccess(p: Payload): (r: Option<bool>)
    ensures r == Some(true) <==> StatusOf(p) == Some(200) && "success" in p && Truthy(p["success"])
    ensures "status_code" !in p ==> r == Some(false)
    ensures "status_code" in p && p["status_code"] == JNum(200) ==> r == Some("success" in p && Truthy(p["success"]))
    ensures "status_code" in p && p["status_code"].JNum? && p["status_code"].n != 200 ==> r == Some(false)
    ensures r.None? <==> StatusOf(p).None?
  {
    match StatusOf(p)
    case None => None
    case Some(status) => Some(status == 200 && "success" in p && Truthy(p["success"]))
  }

  /** A boolean `status_code` reads as 0 or 1 (Python's `int(True) == 1`), so it never succeeds. */
  lemma BooleanStatusNeverSucceeds(p: Payload)
    requires "status_code" in p && p["status_code"].JBool?
    ensures IsSuccess(p) == Some(false)
  {
  }

  /** A non-JSON response is never a success, whatever its HTTP status. */
  lemma NonJsonNeverSucceeds(status: int)
    ensures Normalize(status, NotJson).Ok?
    ensures IsSuccess(Normalize(status, NotJson).value) == Some(false)
  {
  }

  /** For an object body, success is decided by the body's own `status_code` when it has one,
      and by the HTTP status otherwise; in both cases together with a truthy `success`. */
  lemma SuccessOfObjectBody(status: int, fields: map<string, Json>)
    ensures var p := Normalize(status, JsonBody(JObj(fields))).value;
      && (("status_code" !in fields) ==> IsSuccess(p) == Some(status == 200 && "success" in fields && Truthy(fields["success"])))
      && (("status_code" in fields) ==> StatusOf(p) == ToInt(fields["status_code"]))
  {
  }

  /** A `status_code` sent as the decimal string of 200 is read as 200. */
  lemma StringStatusAccepted(fields: map<string, Json>)
    requires "status_code" in fields && fields["status_code"] == JStr(Str(JNum(200)).value)
    requires "success" in fields && Truthy(fields["success"])
    ensures IsSuccess(Normalize(500, JsonBody(JObj(fields))).value) == Some(true)
  {
    IntOfStrOfInt(200);
  }
}

=== FILE: auth_commands.dfy ===
/** The `/auth` command group as decision logic. Every platform call (member roles, role
    creation and assignment, nickname edit, the login HTTP request, the store write) is an
    abstract outcome passed in; each command returns what it reports and the new store.
    Per (guild, member) this is a small state machine: unverified, then verified after a
    successful check and a clean role grant, and unverified again after a revoke. */
module AuthCommands {
  import opened Wrappers
  import opened Text
  import opened JsonValue
  import Storage
  import Prefs
  import I18n
  import AuthApi

  const TruthyWords: set<string> := {"1", "true", "yes", "y", "on"}

  /** `_truthy(val, default)`: an unset variable gives the default; a set one is true exactly
      when, stripped and lower-cased, it is one of the truthy words. */
  function EnvTruthy(val: Option<string>, default: bool): (r: bool)
    ensures val.None? ==> r == default
    ensures val == Some([]) ==> !r
  {
    match val
    case None => default
    case Some(s) => LowerAscii(Strip(s)) in TruthyWords
  }

  /** The default only matters for an unset variable: `""` and every other set value decide alone. */
  lemma DefaultOnlyWhenUnset(s: string)
    ensures EnvTruthy(Some(s), true) == EnvTruthy(Some(s), false)
  {
  }

  /** Surrounding whitespace and letter case do not matter: a padded word is true exactly
      when its lower-cased form is one of the truthy words, whatever the default. */
  lemma TruthyIgnoresPaddingAndCase(pre: string, w: string, post: string, d: bool)
    requires AllSpace(pre) && AllSpace(post) && Trimmed(w)
    ensures EnvTruthy(Some(pre + w + post), d) <==> LowerAscii(w) in TruthyWords
  {
    StripPadded(pre, w, post);
  }

  /** A word with no whitespace at either end is judged by its lower-cased form alone. */
  lemma TrimmedWordTruthy(w: string, d: bool)
    requires Trimmed(w)
    ensures EnvTruthy(Some(w), d) <==> LowerAscii(w) in TruthyWords
  {
    StripTrimmed(w);
  }

  /** `"0"` is false even with a true default. */
  lemma ZeroIsFalse()
    ensures !EnvTruthy(Some("0"), true)
  {
    StripZero();
    LowerZero();
    ZeroNotTruthyWord();
  }

  /** `" Yes "` is true even with a false default. */
  lemma PaddedYesIsTrue()
    ensures EnvTruthy(Some(" Yes "), false)
  {
    StripYes();
    LowerYes();
    YesIsTruthyWord();
  }

  // The concrete cases above are each split into one small fact per step of `_truthy`.

  lemma StripZero()
    ensures Strip("0") == "0"
  {
    StripTrimmed("0");
  }

  lemma LowerZero()
    ensures LowerAscii("0") == "0"
  {
    var l := LowerAscii("0");
    assert l[0] == '0';
  }

  lemma ZeroNotTruthyWord()
    ensures "0" !in TruthyWords
  {
  }

  lemma StripYes()
    ensures Strip(" Yes ") == "Yes"
  {
    StripLeftYes();
    StripRightYes();
  }

  lemma StripLeftYes()
    ensures StripLeft(" Yes ") == "Yes "
  {
    var pre, w := " ", "Yes ";
    assert pre[0] == ' ' && w[0] == 'Y';
    StripLeftAt(pre, w);
    assert pre + w == " Yes ";
  }

  lemma StripRightYes()
    ensures StripRight("Yes ") == "Yes"
  {
    var s := "Yes ";
    assert s[..3] == "Yes";
  }

  lemma LowerYes()
    ensures LowerAscii("Yes") == "yes"
  {
    var l := LowerAscii("Yes");
    assert l[0] == 'y' && l[1] == 'e' && l[2] == 's';
  }

  lemma YesIsTruthyWord()
    ensures "yes" in TruthyWords
  {
  }

  /** The environment variables the commands read, unset as `None`. */
  datatype Env = Env(
    loginChannelOnly: Option<string>,   // AUTH_LOGIN_CHANNEL_ONLY
    channelName: Option<string>,        // AUTH_CHANNEL_NAME
    successRole: Option<string>,        // AUTH_SUCCESS_ROLE
    apiBase: Option<string>)            // AUTH_API_BASE

  /** Restriction to the auth channel: on unless the variable says otherwise. */
  function RestrictLogin(env: Env): bool {
    EnvTruthy(Some(env.loginChannelOnly.GetOr("true")), true)
  }

  function AuthChannel(env: Env): string {
    env.channelName.GetOr("auth-verify")
  }

  function SuccessRole(env: Env): string {
    env.successRole.GetOr("Verified")
  }

  /** `if not base`: an unset or empty base is not configured. */
  predicate ApiConfigured(env: Env) {
    env.apiBase.Some? && env.apiBase.value != []
  }

  datatype Role = Role(id: int, name: string)

  /** The position of the first role at or after `i` with the given name. */
  function FindFrom(roles: seq<Role>, name: string, i: nat): (r: Option<nat>)
    requires i <= |roles|
    ensures r.Some? ==> i <= r.value < |roles| && roles[r.value].name == name
    ensures r.Some? ==> forall k :: i <= k < r.value ==> roles[k].name != name
    ensures r.None? ==> forall k :: i <= k < |roles| ==> roles[k].name != name
    decreases |roles| - i
  {
    if i == |roles| then None
    else if roles[i].name == name then Some(i)
    else FindFrom(roles, name, i + 1)
  }

  /** `discord.utils.get(guild.roles, name=name)`: the first role with that name, if any. */
  function FindRole(roles: seq<Role>, name: string): (r: Option<Role>)
    ensures r.None? <==> forall k :: 0 <= k < |roles| ==> roles[k].name != name
    ensures r.Some? ==> r.value in roles && r.value.name == name
    ensures r.Some? ==> exists i :: 0 <= i < |roles| && roles[i] == r.value && forall k :: 0 <= k < i ==> roles[k].name != name
  {
    match FindFrom(roles, name, 0)
    case None => None
    case Some(i) => Some(roles[i])
  }

  /** With two roles of the same name, the lookup answers with the first, so holding only the
      second does not count as holding the role. */
  lemma FirstOfDuplicates(a: int, b: int, name: string)
    requires a != b
    ensures FindRole([Role(a, name), Role(b, name)], name) == Some(Role(a, name))
    ensures !HoldsRole([Role(a, name), Role(b, name)], {b}, name)
  {
  }

  /** `role and role in member.roles` for the role looked up by name. */
  predicate HoldsRole(roles: seq<Role>, memberRoles: set<int>, name: string)
    ensures HoldsRole(roles, memberRoles, name) ==>
      exists i :: 0 <= i < |roles| && roles[i].name == name && roles[i].id in memberRoles
    ensures (forall k :: 0 <= k < |roles| ==> roles[k].name != name) ==> !HoldsRole(roles, memberRoles, name)
  {
    var r := FindRole(roles, name);
    r.Some? && r.value.id in memberRoles
  }

  /** A reply to send: a message key, the language it is rendered in, and the keyword arguments. */
  datatype Reply = Reply(key: string, lang: string, args: map<string, Json>)

  /** The reply's text, `t(key, lang, **args)`; rendering a list or dictionary argument
      (Python's `str()` of a container) is outside this model. */
  function Render(r: Reply): (text: Option<string>)
    ensures text.Some? <==> forall k :: k in r.args ==> Str(r.args[k]).Some?
  {
    if forall k :: k in r.args ==> Str(r.args[k]).Some? then
      Some(I18n.T(r.key, Some(r.lang), map k | k in r.args :: Str(r.args[k]).value))
    else None
  }

  /** Replies outside a guild read the preference stored under guild 0. */
  function LangGuild(guild: Option<int>): int {
    guild.GetOr(0)
  }

  // ---------------------------------------------------------------- login

  datatype Channel = TextChannel(name: string) | OtherChannel

  /** The `/auth login` invocation: where it was issued, by whom, and the guild's roles and
      the member's role ids (meaningful only inside a guild). */
  datatype LoginRequest = LoginRequest(
    guild: Option<int>, user: int, channel: Channel, roles: seq<Role>, memberRoles: set<int>)

  datatype LoginDecision = Refused(reply: Reply) | ShowModal(client: AuthApi.Client)

  predicate RefusedWith(d: LoginDecision, key: string) {
    d.Refused? && d.reply.key == key
  }

  predicate ChannelAllowed(env: Env, ch: Channel) {
    !RestrictLogin(env) || (ch.TextChannel? && ch.name == AuthChannel(env))
  }

  /** Either source of truth blocks a new login: the success role, or a record in the store. */
  predicate AlreadyVerified(env: Env, g: int, req: LoginRequest, db: Storage.Db) {
    HoldsRole(req.roles, req.memberRoles, SuccessRole(env)) || Storage.IsVerified(db, g, req.user)
  }

  /** `login`: the checks run in order and the first failing one answers; only when all pass
      is the login form shown, with a client for the configured base. */
  function Login(env: Env, req: LoginRequest, db: Storage.Db): (d: LoginDecision)
    ensures d.Refused? ==> d.reply.lang == Prefs.GetLang(db, LangGuild(req.guild), req.user)
    ensures RefusedWith(d, "must_use_in_server") <==> req.guild.None?
    ensures RefusedWith(d, "use_channel") <==> req.guild.Some? && !ChannelAllowed(env, req.channel)
    ensures RefusedWith(d, "use_channel") ==> d.reply.args == map["channel" := JStr(AuthChannel(env))]
    ensures RefusedWith(d, "already_verified") <==>
      req.guild.Some? && ChannelAllowed(env, req.channel) && AlreadyVerified(env, req.guild.value, req, db)
    ensures RefusedWith(d, "api_not_config") <==>
      req.guild.Some? && ChannelAllowed(env, req.channel) && !AlreadyVerified(env, req.guild.value, req, db)
      && !ApiConfigured(env)
    ensures d.ShowModal? <==>
      req.guild.Some? && ChannelAllowed(env, req.channel) && !AlreadyVerified(env, req.guild.value, req, db)
      && ApiConfigured(env)
    ensures d.ShowModal? ==> d.client == AuthApi.NewClient(env.apiBase.value)
  {
    var lang := Prefs.GetLang(db, LangGuild(req.guild), req.user);
    if req.guild.None? then Refused(Reply("must_use_in_server", lang, map[]))
    else if RestrictLogin(env) && !(req.channel.TextChannel? && req.channel.name == AuthChannel(env)) then
      Refused(Reply("use_channel", lang, map["channel" := JStr(AuthChannel(env))]))
    else if HoldsRole(req.roles, req.memberRoles, SuccessRole(env)) || Storage.IsVerified(db, req.guild.value, req.user) then
      Refused(Reply("already_verified", lang, map[]))
    else if env.apiBase.None? || env.apiBase.value == [] then
      Refused(Reply("api_not_config", lang, map[]))
    else ShowModal(AuthApi.NewClient(env.apiBase.value))
  }

  // ---------------------------------------------------------------- role grant

  datatype RoleCreation = CreateSucceeds | CreateFails
  datatype AddRole = AddSucceeds | AddForbidden | AddFails(error: string)
  datatype NickEdit = NickSucceeds | NickForbidden | NickFails

  /** The platform's side of a grant: the guild of the form submission, its roles, and how
      each call would end (creating the role if missing, adding it, renaming the member). */
  datatype Platform = Platform(
    guild: Option<int>, roles: seq<Role>, create: RoleCreation, add: AddRole, nick: NickEdit)

  /** The stage at which the grant stops, as its message key and arguments; `None` when it completes. */
  function GrantFailure(p: Platform, roleName: string): (f: Option<(string, map<string, string>)>)
    ensures f.None? <==>
      p.guild.Some? && (FindRole(p.roles, roleName).Some? || p.create.CreateSucceeds?) && p.add.AddSucceeds?
    ensures f.Some? ==> f.value.0 in I18n.Messages
  {
    if p.guild.None? then Some(("guild_not_found", map[]))
    else if FindRole(p.roles, roleName).None? && p.create.CreateFails? then Some(("role_create_failed", map[]))
    else
      match p.add
      case AddForbidden => Some(("role_permission_denied", map[]))
      case AddFails(e) => Some(("role_assign_failed", map["error" := e]))
      case AddSucceeds => None
  }

  /** `_grant_role_and_nick`: `None` when the role is in place, otherwise the translated text of
      the first failing stage, which is never empty. Nickname failures are ignored. */
  function GrantRoleAndNick(db: Storage.Db, p: Platform, user: int, roleName: string): (r: Option<string>)
    ensures r.None? <==> GrantFailure(p, roleName).None?
    ensures r.Some? ==> r.value != []
    ensures r.Some? ==> r.value == I18n.T(GrantFailure(p, roleName).value.0,
      Some(Prefs.GetLang(db, LangGuild(p.guild), user)), GrantFailure(p, roleName).value.1)
  {
    match GrantFailure(p, roleName)
    case None => None
    case Some((key, args)) =>
      var lang := Some(Prefs.GetLang(db, LangGuild(p.guild), user));
      I18n.KnownKeyNonEmpty(key, lang, args);
      Some(I18n.T(key, lang, args))
  }

  /** The stages in order: a failed creation of a missing role is reported before anything about
      adding it; a `Forbidden` add is told apart from any other add error; the nickname never matters. */
  lemma GrantStages(p: Platform, roleName: string, nick: NickEdit)
    requires p.guild.Some?
    ensures FindRole(p.roles, roleName).None? && p.create.CreateFails? ==>
      GrantFailure(p, roleName) == Some(("role_create_failed", map[]))
    ensures (FindRole(p.roles, roleName).Some? || p.create.CreateSucceeds?) && p.add.AddForbidden? ==>
      GrantFailure(p, roleName) == Some(("role_permission_denied", map[]))
    ensures (FindRole(p.roles, roleName).Some? || p.create.CreateSucceeds?) && p.add.AddFails? ==>
      GrantFailure(p, roleName) == Some(("role_assign_failed", map["error" := p.add.error]))
    ensures GrantFailure(p.(nick := nick), roleName) == GrantFailure(p, roleName)
  {
  }

  // ---------------------------------------------------------------- form submission

  /** What the submission reports. `Crashed` is an exception that escapes the handler
      (reading a `status_code` that `int()` rejects), after which nothing is sent. */
  datatype SubmitOutcome =
    | RequestFailed(error: string)
    | Rejected(status: int)
    | PartiallyVerified(username: Json, problem: string)
    | Verified(username: Json)
    | Crashed

  datatype Submission = Submission(outcome: SubmitOutcome, db: Storage.Db)

  /** The payload `api.login` returns, or the text of the exception it raises. */
  function Exchange(call: AuthApi.Call): (r: Result<AuthApi.Payload>)
    ensures r.Err? <==> call.CallRaised? || (call.body.JsonBody? && !call.body.value.JObj?)
    ensures call.CallRaised? ==> r == Err(call.error)
    ensures call.Responded? ==> r == AuthApi.Normalize(call.status, call.body)
  {
    match call
    case CallRaised(e) => Err(e)
    case Responded(status, body) => AuthApi.Normalize(status, body)
  }

  /** `pick_username(payload) or "user"`: the picked name when it is truthy, else `"user"`. */
  function ResolveUsername(p: AuthApi.Payload): (u: Json)
    ensures Truthy(u)
    ensures var picked := AuthApi.PickUsername(p);
      u == if picked.Some? && Truthy(picked.value) then picked.value else JStr("user")
  {
    var picked := AuthApi.PickUsername(p);
    if picked.Some? && Truthy(picked.value) then picked.value else JStr("user")
  }

  /** `on_submit`. A request exception, a rejected check and a failed grant never write the
      store; the record is written only after a clean grant, keyed by the submission's guild,
      and a failing write is swallowed (still reported as verified). Preferences never change. */
  function OnSubmit(db: Storage.Db, guild: int, user: int, roleName: string,
                    call: AuthApi.Call, p: Platform, writeFails: bool): (s: Submission)
    ensures s.outcome.RequestFailed? <==> Exchange(call).Err?
    ensures s.outcome.RequestFailed? ==> s.outcome.error == Exchange(call).error
    ensures s.outcome.Crashed? <==> Exchange(call).Ok? && AuthApi.IsSuccess(Exchange(call).value).None?
    ensures s.outcome.Rejected? <==> Exchange(call).Ok? && AuthApi.IsSuccess(Exchange(call).value) == Some(false)
    ensures s.outcome.Rejected? ==> AuthApi.StatusOf(Exchange(call).value) == Some(s.outcome.status)
    ensures s.outcome.Verified? <==>
      Exchange(call).Ok? && AuthApi.IsSuccess(Exchange(call).value) == Some(true) && GrantFailure(p, roleName).None?
    ensures s.outcome.PartiallyVerified? <==>
      Exchange(call).Ok? && AuthApi.IsSuccess(Exchange(call).value) == Some(true) && GrantFailure(p, roleName).Some?
    ensures s.outcome.PartiallyVerified? ==>
      GrantRoleAndNick(db, p, user, roleName).Some? && s.outcome.problem == GrantRoleAndNick(db, p, user, roleName).value
    ensures s.outcome.Verified? || s.outcome.PartiallyVerified? ==>
      s.outcome.username == ResolveUsername(Exchange(call).value)
    ensures s.db != db ==> s.outcome.Verified? && !writeFails
    ensures s.outcome.Verified? && !writeFails ==>
      s.db == Storage.MarkVerified(db, p.guild.GetOr(guild), user, Storage.Record(s.outcome.username))
    ensures forall g, u :: Prefs.GetLang(s.db, g, u) == Prefs.GetLang(db, g, u)
  {
    match Exchange(call)
    case Err(e) => Submission(RequestFailed(e), db)
    case Ok(payload) =>
      match AuthApi.IsSuccess(payload)
      case None => Submission(Crashed, db)
      case Some(false) => Submission(Rejected(AuthApi.StatusOf(payload).value), db)
      case Some(true) =>
        var username := ResolveUsername(payload);
        var err := GrantRoleAndNick(db, p, user, roleName);
        if err.Some? && err.value != [] then Submission(PartiallyVerified(username, err.value), db)
        else if writeFails then Submission(Verified(username), db)
        else Submission(Verified(username), Storage.MarkVerified(db, p.guild.GetOr(guild), user, Storage.Record(username)))
  }

  /** The follow-up message for an outcome, in the given language; nothing is sent after a
      crash. A status of 500 means wrong credentials; other rejections are generic. */
  function SubmitReply(o: SubmitOutcome, lang: string): (r: Option<Reply>)
    ensures r.None? <==> o.Crashed?
    ensures r.Some? && r.value.key == "auth_failed_500" <==> o == Rejected(500)
    ensures r.Some? && r.value.key == "auth_failed_generic" <==> o.Rejected? && o.status != 500
    ensures r.Some? ==> r.value.lang == lang && r.value.key in I18n.Messages
    ensures o.RequestFailed? ==> r == Some(Reply("auth_request_failed", lang, map["error" := JStr(o.error)]))
    ensures o.PartiallyVerified? ==>
      r == Some(Reply("auth_partial_success", lang, map["username" := o.username, "error" := JStr(o.problem)]))
    ensures o.Verified? ==> r == Some(Reply("auth_success", lang, map["username" := o.username]))
  {
    match o
    case RequestFailed(e) => Some(Reply("auth_request_failed", lang, map["error" := JStr(e)]))
    case Rejected(status) =>
      Some(Reply(if status == 500 then "auth_failed_500" else "auth_failed_generic", lang, map[]))
    case PartiallyVerified(u, problem) =>
      Some(Reply("auth_partial_success", lang, map["username" := u, "error" := JStr(problem)]))
    case Verified(u) => Some(Reply("auth_success", lang, map["username" := u]))
    case Crashed => None
  }

  /** The follow-up `on_submit` sends: the outcome's reply in the language stored for the
      submitting member in the guild of the `/auth login` call. That guild, not the one the
      grant runs in, picks the language. A submission never writes preferences, so reading
      the language before or after the store write gives the same reply. */
  function SubmitFollowUp(db: Storage.Db, guild: int, user: int, roleName: string,
                          call: AuthApi.Call, p: Platform, writeFails: bool): (r: Option<Reply>)
    ensures var s := OnSubmit(db, guild, user, roleName, call, p, writeFails);
      && (r.None? <==> s.outcome.Crashed?)
      && r == SubmitReply(s.outcome, Prefs.GetLang(s.db, guild, user))
    ensures r.Some? ==> r.value.lang == Prefs.GetLang(db, guild, user)
  {
    var s := OnSubmit(db, guild, user, roleName, call, p, writeFails);
    SubmitReply(s.outcome, Prefs.GetLang(db, guild, user))
  }

  /** A rejected check (status 500 included) leaves the store exactly as it was. */
  lemma RejectionWritesNothing(db: Storage.Db, guild: int, user: int, roleName: string, status: int,
                               body: AuthApi.Body, p: Platform, writeFails: bool)
    requires AuthApi.Normalize(status, body).Ok?
    requires AuthApi.IsSuccess(AuthApi.Normalize(status, body).value) == Some(false)
    ensures var s := OnSubmit(db, guild, user, roleName, AuthApi.Responded(status, body), p, writeFails);
      s.outcome.Rejected? && s.db == db
  {
  }

  /** A successful check whose role assignment is forbidden reports the permission error and
      leaves the member unverified in the store. */
  lemma ForbiddenGrantKeepsUnverified(db: Storage.Db, guild: int, user: int, roleName: string,
                                      call: AuthApi.Call, p: Platform, writeFails: bool)
    requires Exchange(call).Ok? && AuthApi.IsSuccess(Exchange(call).value) == Some(true)
    requires p.guild == Some(guild) && (FindRole(p.roles, roleName).Some? || p.create.CreateSucceeds?)
    requires p.add.AddForbidden?
    requires !Storage.IsVerified(db, guild, user)
    ensures var s := OnSubmit(db, guild, user, roleName, call, p, writeFails);
      && s.outcome.PartiallyVerified?
      && s.outcome.problem == I18n.T("role_permission_denied", Some(Prefs.GetLang(db, guild, user)), map[])
      && !Storage.IsVerified(s.db, guild, user)
  {
  }

  /** A reply with one scalar argument renders as `t` with that argument's `str()`. */
  lemma RenderOneArgument(key: string, lang: string, name: string, v: Json)
    requires Str(v).Some?
    ensures Render(Reply(key, lang, map[name := v])) == Some(I18n.T(key, Some(lang), map[name := Str(v).value]))
  {
    var args := map[name := v];
    assert (map k | k in args :: Str(args[k]).value) == map[name := Str(v).value];
  }

  /** An exception from the login request is reported with its text, in the member's language,
      and the store is untouched. */
  lemma RequestFailureReported(db: Storage.Db, guild: int, user: int, roleName: string, error: string,
                               p: Platform, writeFails: bool)
    ensures var call := AuthApi.CallRaised(error);
      var s := OnSubmit(db, guild, user, roleName, call, p, writeFails);
      var r := SubmitFollowUp(db, guild, user, roleName, call, p, writeFails);
      && s.outcome == RequestFailed(error)
      && s.db == db
      && r.Some?
      && Render(r.value) == Some(I18n.T("auth_request_failed", Some(Prefs.GetLang(db, guild, user)), map["error" := error]))
  {
    RenderOneArgument("auth_request_failed", Prefs.GetLang(db, guild, user), "error", JStr(error));
  }

  /** A clean grant whose store write fails still reports `auth_success` with the username, while
      the store keeps no record: the known gap between the role and the record. */
  lemma SwallowedWriteStillReportsSuccess(db: Storage.Db, guild: int, user: int, roleName: string,
                                          call: AuthApi.Call, p: Platform)
    requires Exchange(call).Ok? && AuthApi.IsSuccess(Exchange(call).value) == Some(true)
    requires GrantFailure(p, roleName).None?
    ensures var s := OnSubmit(db, guild, user, roleName, call, p, true);
      var name := ResolveUsername(Exchange(call).value);
      && s.db == db
      && s.outcome == Verified(name)
      && SubmitFollowUp(db, guild, user, roleName, call, p, true)
         == Some(Reply("auth_success", Prefs.GetLang(db, guild, user), map["username" := name]))
  {
  }

  /** The success reply of a scalar username renders as the `auth_success` text with that name. */
  lemma SuccessReplyRendered(name: Json, lang: string)
    requires Str(name).Some?
    ensures Render(SubmitReply(Verified(name), lang).value)
      == Some(I18n.T("auth_success", Some(lang), map["username" := Str(name).value]))
  {
    RenderOneArgument("auth_success", lang, "username", name);
  }

  /** A reply with two scalar arguments renders as `t` with each argument's `str()`. */
  lemma RenderTwoArguments(key: string, lang: string, n1: string, v1: Json, n2: string, v2: Json)
    requires n1 != n2 && Str(v1).Some? && Str(v2).Some?
    ensures Render(Reply(key, lang, map[n1 := v1, n2 := v2]))
      == Some(I18n.T(key, Some(lang), map[n1 := Str(v1).value, n2 := Str(v2).value]))
  {
    var args := map[n1 := v1, n2 := v2];
    assert (map k | k in args :: Str(args[k]).value) == map[n1 := Str(v1).value, n2 := Str(v2).value];
  }

  /** The partial-success reply of a scalar username renders as the `auth_partial_success` text
      with the name and the grant's problem text. */
  lemma PartialReplyRendered(name: Json, problem: string, lang: string)
    requires Str(name).Some?
    ensures Render(SubmitReply(PartiallyVerified(name, problem), lang).value)
      == Some(I18n.T("auth_partial_success", Some(lang), map["username" := Str(name).value, "error" := problem]))
  {
    RenderTwoArguments("auth_partial_success", lang, "username", name, "error", JStr(problem));
  }

  /** A successful check whose grant fails reports the grant's own message, rendered into the
      partial-success reply, and writes nothing. */
  lemma FailedGrantReported(db: Storage.Db, guild: int, user: int, roleName: string,
                            call: AuthApi.Call, p: Platform, writeFails: bool)
    requires Exchange(call).Ok? && AuthApi.IsSuccess(Exchange(call).value) == Some(true)
    requires GrantFailure(p, roleName).Some?
    requires Str(ResolveUsername(Exchange(call).value)).Some?
    ensures var s := OnSubmit(db, guild, user, roleName, call, p, writeFails);
      var r := SubmitFollowUp(db, guild, user, roleName, call, p, writeFails);
      && s.db == db
      && s.outcome.PartiallyVerified?
      && r.Some?
      && Render(r.value)
         == Some(I18n.T("auth_partial_success", Some(Prefs.GetLang(db, guild, user)),
              map["username" := Str(ResolveUsername(Exchange(call).value)).value,
                  "error" := GrantRoleAndNick(db, p, user, roleName).value]))
  {
    var s := OnSubmit(db, guild, user, roleName, call, p, writeFails);
    PartialReplyRendered(s.outcome.username, s.outcome.problem, Prefs.GetLang(db, guild, user));
  }

  // ---------------------------------------------------------------- revoke

  /** The `/auth revoke` invocation by an administrator against a member. */
  datatype RevokeRequest = RevokeRequest(
    guild: Option<int>, admin: int, member: int, mention: string,
    roles: seq<Role>, memberRoles: set<int>, removalSucceeds: bool)

  datatype RevokeResult =
    | RevokeRefused(reply: Reply)
    | Revoked(removedRole: bool, removedRecord: bool, message: string, db: Storage.Db)

  /** The message keys of the revoke report: the success line, then the role note iff the
      role was removed, then the record note iff a record was deleted. */
  function RevokeParts(removedRole: bool, removedRecord: bool): (keys: seq<string>)
    ensures |keys| >= 1 && keys[0] == "revoke_success"
    ensures removedRole <==> "revoke_role_removed" in keys
    ensures removedRecord <==> "revoke_record_cleared" in keys
    ensures |keys| == 1 + (if removedRole then 1 else 0) + (if removedRecord then 1 else 0)
    ensures removedRole && removedRecord ==> keys == ["revoke_success", "revoke_role_removed", "revoke_record_cleared"]
  {
    ["revoke_success"]
      + (if removedRole then ["revoke_role_removed"] else [])
      + (if removedRecord then ["revoke_record_cleared"] else [])
  }

  /** One part of the report, rendered; only `revoke_success` takes the member mention. */
  function PartText(key: string, lang: string, mention: string): string {
    I18n.T(key, Some(lang), if key == "revoke_success" then map["member" := mention] else map[])
  }

  /** Texts appended in order, each key rendered by `f`. */
  function JoinWith(f: string -> string, keys: seq<string>): (r: string)
    ensures keys == [] ==> r == []
    ensures keys != [] ==> f(keys[0]) <= r
  {
    if keys == [] then [] else f(keys[0]) + JoinWith(f, keys[1..])
  }

  /** Joining the report parts with any rendering gives the success line, then the role note iff
      the role was removed, then the record note iff a record was deleted. */
  lemma PartsJoinedWith(f: string -> string, removedRole: bool, removedRecord: bool)
    ensures JoinWith(f, RevokeParts(removedRole, removedRecord))
      == f("revoke_success")
       + (if removedRole then f("revoke_role_removed") else [])
       + (if removedRecord then f("revoke_record_cleared") else [])
  {
    var keys := RevokeParts(removedRole, removedRecord);
    var rest := keys[1..];
    assert JoinWith(f, keys) == f("revoke_success") + JoinWith(f, rest);
    if removedRole {
      assert rest[0] == "revoke_role_removed";
      assert JoinWith(f, rest) == f("revoke_role_removed") + JoinWith(f, rest[1..]);
      JoinOptional(f, rest[1..], removedRecord);
    } else {
      JoinOptional(f, rest, removedRecord);
    }
  }

  lemma JoinOptional(f: string -> string, keys: seq<string>, present: bool)
    requires keys == (if present then ["revoke_record_cleared"] else [])
    ensures JoinWith(f, keys) == (if present then f("revoke_record_cleared") else [])
  {
    if present {
      assert keys[1..] == [];
    }
  }

  /** The report text: each part rendered, in order, and the renderings appended. */
  function RevokeText(keys: seq<string>, lang: string, mention: string): (r: string)
    ensures keys == [] ==> r == []
    ensures keys != [] ==> PartText(keys[0], lang, mention) <= r
    ensures keys != [] && keys[0] in I18n.Messages ==> r != []
  {
    var r := JoinWith(k => PartText(k, lang, mention), keys);
    if keys != [] && keys[0] in I18n.Messages then
      I18n.KnownKeyNonEmpty(keys[0], Some(lang), if keys[0] == "revoke_success" then map["member" := mention] else map[]);
      r
    else r
  }

  /** The message `revoke` sends, composed as the command does: the success line with the
      mention, and each note appended when it applies. It is the report of `RevokeParts`. */
  function RevokeMessage(removedRole: bool, removedRecord: bool, lang: string, mention: string): (msg: string)
    ensures msg == RevokeText(RevokeParts(removedRole, removedRecord), lang, mention)
  {
    PartsJoinedWith(k => PartText(k, lang, mention), removedRole, removedRecord);
    var msg := I18n.T("revoke_success", Some(lang), map["member" := mention]);
    var msg := if removedRole then msg + I18n.T("revoke_role_removed", Some(lang), map[]) else msg;
    if removedRecord then msg + I18n.T("revoke_record_cleared", Some(lang), map[]) else msg
  }

  /** `revoke`: the role is counted as removed only if it exists, the member holds it and the
      removal succeeds; the store delete runs regardless and reports whether a record existed;
      afterwards the member has no record. Re-adding the unverified role does not affect the result. */
  function Revoke(env: Env, req: RevokeRequest, db: Storage.Db): (r: RevokeResult)
    ensures r.RevokeRefused? <==> req.guild.None?
    ensures r.RevokeRefused? ==> r.reply == Reply("must_use_in_server", Prefs.GetLang(db, 0, req.admin), map[])
    ensures r.Revoked? ==> (r.removedRole <==> HoldsRole(req.roles, req.memberRoles, SuccessRole(env)) && req.removalSucceeds)
    ensures r.Revoked? ==> (r.removedRecord <==> Storage.IsVerified(db, req.guild.value, req.member))
    ensures r.Revoked? ==> !Storage.IsVerified(r.db, req.guild.value, req.member)
    ensures r.Revoked? ==> forall g, u | g != req.guild.value || u != req.member ::
      Storage.RecordOf(r.db, g, u) == Storage.RecordOf(db, g, u)
    ensures r.Revoked? ==> (r.removedRecord, r.db) == Storage.RevokeVerified(db, req.guild.value, req.member)
    ensures r.Revoked? ==>
      r.message == RevokeMessage(r.removedRole, r.removedRecord, Prefs.GetLang(db, req.guild.value, req.admin), req.mention)
  {
    if req.guild.None? then RevokeRefused(Reply("must_use_in_server", Prefs.GetLang(db, 0, req.admin), map[]))
    else
      var g := req.guild.value;
      var removedRole := HoldsRole(req.roles, req.memberRoles, SuccessRole(env)) && req.removalSucceeds;
      var (removedRecord, db') := Storage.RevokeVerified(db, g, req.member);
      var lang := Prefs.GetLang(db, g, req.admin);
      Revoked(removedRole, removedRecord, RevokeMessage(removedRole, removedRecord, lang, req.mention), db')
  }

  /** A revoke never touches language preferences: every member reads the same language after. */
  lemma RevokeKeepsLanguages(env: Env, req: RevokeRequest, db: Storage.Db)
    ensures var r := Revoke(env, req, db);
      r.Revoked? ==> forall g, u :: Prefs.GetLang(r.db, g, u) == Prefs.GetLang(db, g, u)
  {
    if req.guild.Some? {
      var r := Revoke(env, req, db);
      var (_, db') := Storage.RevokeVerified(db, req.guild.value, req.member);
      assert r.db == db';
      forall g, u ensures Prefs.GetLang(db', g, u) == Prefs.GetLang(db, g, u) {
        assert Storage.Entry(db', g).lang == Storage.Entry(db, g).lang;
      }
    }
  }

  // ---------------------------------------------------------------- the state machine

  /** Once a submission in guild g ends verified and the write succeeds, a new login by that
      member in the allowed channel is refused as already verified. */
  lemma VerifiedMemberCannotLogInAgain(env: Env, req: LoginRequest, db: Storage.Db,
                                       call: AuthApi.Call, p: Platform)
    requires req.guild.Some? && p.guild == req.guild && ChannelAllowed(env, req.channel)
    requires OnSubmit(db, req.guild.value, req.user, SuccessRole(env), call, p, false).outcome.Verified?
    ensures var s := OnSubmit(db, req.guild.value, req.user, SuccessRole(env), call, p, false);
      Login(env, req, s.db) == Refused(Reply("already_verified", Prefs.GetLang(db, req.guild.value, req.user), map[]))
  {
  }

  /** After a revoke that removed the record and left the member without the success role,
      the member may log in again (given the right channel and a configured API). */
  lemma RevokedMemberMayLogInAgain(env: Env, rev: RevokeRequest, req: LoginRequest, db: Storage.Db)
    requires rev.guild.Some? && req.guild == rev.guild && req.user == rev.member
    requires ChannelAllowed(env, req.channel) && ApiConfigured(env)
    requires !HoldsRole(req.roles, req.memberRoles, SuccessRole(env))
    ensures Revoke(env, rev, db).Revoked?
    ensures Login(env, req, Revoke(env, rev, db).db).ShowModal?
  {
  }

  /** A member with the success role but no record, or a record but no role, is already verified. */
  lemma EitherSourceBlocks(env: Env, req: LoginRequest, db: Storage.Db)
    requires req.guild.Some? && ChannelAllowed(env, req.channel)
    requires HoldsRole(req.roles, req.memberRoles, SuccessRole(env)) != Storage.IsVerified(db, req.guild.value, req.user)
    ensures RefusedWith(Login(env, req, db), "already_verified")
  {
  }
}

=== FILE: i18n.dfy ===
/** Message lookup: a constant table of Chinese and English templates, a language tag
    normaliser, a fallback chain and `{name}` substitution that never fails. */
module I18n {
  import opened Wrappers
  import opened PyFormat

  const DefaultLang: string := "zh"

  /** One entry of the table: its Chinese (`zh`) and English (`en`) templates. Looking up any
      other language finds nothing, as `bundle.get` does on the two-key dictionaries of the table. */
  datatype Bundle = Bundle(zh: string, en: string)

  /** The message table. */
  const Messages: map<string, Bundle> := map[
    "must_use_in_server" := Bundle("此命令必须在服务器内使用。", "This command must be used in a server."),
    "use_channel" := Bundle("请在 #{channel} 中使用该命令。", "Please use this command in #{channel}."),
    "api_not_config" := Bundle("认证 API 未配置。", "Auth API base is not configured."),
    "already_verified" := Bundle("你已通过验证，无需重复认证。", "You are already verified."),
    "auth_failed_500" := Bundle("账号或密码错误。", "Incorrect username or password."),
    "auth_failed_generic" := Bundle("认证失败，请稍后再试。", "Authentication failed. " + "Please try again later."),
    "auth_success" := Bundle("✅ 已以 {username} 身份通过验证，已授予角色并更新昵称。", "✅ Authenticated as {username}. " + "Role granted and nickname updated."),
    "setup_complete" := Bundle("初始化完成。角色：{role}，频道：{channel}", "Setup complete. Role: " + "{role}, Channel: {channel}"),
    "lang_prompt" := Bundle("请选择显示语言 / Choose your language", "请选择显示语言 / Choose your language"),
    "lang_set_zh" := Bundle("已切换为中文显示。", "Switched to Chinese."),
    "lang_set_en" := Bundle("已切换为英文显示。", "Switched to English."),
    "missing_admin" := Bundle("需要管理员权限才能使用此命令。", "You need Administrator " + "permission to use this command."),
    "guild_not_found" := Bundle("找不到服务器。", "Guild not found"),
    "role_create_failed" := Bundle("无法创建/找到角色。", "Failed to create/find role"),
    "role_permission_denied" := Bundle("缺少分配角色的权限。请将我的角色提升到更高位置。", "Missing permission to assign " + "roles. Move my role higher."),
    "role_assign_failed" := Bundle("分配角色失败：{error}", "Failed to assign role: {error}"),
    "modal_title" := Bundle("账号登录", "Account Login"),
    "modal_login_label" := Bundle("登录名（用户名/邮箱）", "Login (username/email)"),
    "modal_login_placeholder" := Bundle("你的用户名或邮箱", "your name or email"),
    "modal_password_label" := Bundle("密码", "Password"),
    "auth_request_failed" := Bundle("认证请求失败：{error}", "Auth request failed: {error}"),
    "auth_partial_success" := Bundle("已验证为 {username}，但是：{error}", "Authenticated as " + "{username}, but: {error}"),
    "revoke_success" := Bundle("已撤销 {member} 的验证。", "Revoked verification for {member}."),
    "revoke_role_removed" := Bundle(" 已移除角色。", " Removed role."),
    "revoke_record_cleared" := Bundle(" 已清除记录。", " Cleared record."),
    "generic_error" := Bundle("运行此命令时发生错误。", "An error occurred while " + "running this command.")
  ]

  /** The text before the first `-` (Python's `s.split("-")[0]`). */
  function BeforeDash(s: string): (r: string)
    ensures r <= s && '-' !in r
    ensures |r| < |s| ==> s[|r|] == '-'
  {
    if s == [] || s[0] == '-' then [] else [s[0]] + BeforeDash(s[1..])
  }

  /** `(lang or DEFAULT_LANG).split("-")[0]`: a missing or empty tag means Chinese, and a
      regional tag such as `en-US` is cut to its primary subtag. */
  function NormalizeLang(lang: Option<string>): (r: string)
    ensures '-' !in r
    ensures lang.None? || lang.value == [] ==> r == DefaultLang
    ensures lang.Some? && lang.value != [] ==> r <= lang.value && (|r| == |lang.value| || lang.value[|r|] == '-')
  {
    var tag := if lang.Some? && lang.value != [] then lang.value else DefaultLang;
    BeforeDash(tag)
  }

  /** `bundle.get(l) or ""`: an absent and an empty template are the same to the chain. */
  function Get(b: Bundle, l: string): string {
    if l == "zh" then b.zh else if l == "en" then b.en else ""
  }

  /** A template that is present and does not start with a brace. */
  predicate Plain(tpl: string) {
    tpl != [] && tpl[0] != '{' && tpl[0] != '}'
  }

  /** `bundle.get(lang) or bundle.get("en") or bundle.get("zh") or key`. */
  function Template(key: string, lang: string): (r: string)
    ensures key !in Messages ==> r == key
    ensures key in Messages ==> r == Get(Messages[key], if lang == "zh" || lang == "en" then lang else "en")
  {
    var b := if key in Messages then Messages[key] else Bundle("", "");
    TableComplete(key);
    Chain(b, lang, key)
  }

  /** The fallback chain over one bundle: the first non-empty of the requested template, the
      English one and the Chinese one, and the key itself when all three are missing. */
  function Chain(b: Bundle, lang: string, key: string): (r: string)
    ensures r in {Get(b, lang), Get(b, "en"), Get(b, "zh"), key}
    ensures Get(b, lang) != [] ==> r == Get(b, lang)
    ensures Get(b, lang) == [] && Get(b, "en") != [] ==> r == Get(b, "en")
    ensures Get(b, lang) == [] && Get(b, "en") == [] && Get(b, "zh") != [] ==> r == Get(b, "zh")
    ensures Get(b, lang) == [] && Get(b, "en") == [] && Get(b, "zh") == [] ==> r == key
    ensures r != [] || key == []
  {
    if Get(b, lang) != "" then Get(b, lang)
    else if Get(b, "en") != "" then Get(b, "en")
    else if Get(b, "zh") != "" then Get(b, "zh")
    else key
  }

  /** `t(key, lang, **args)`: the chosen template, formatted; the raw template when formatting raises. */
  function T(key: string, lang: Option<string>, args: map<string, string>): (r: string)
    ensures Format(Template(key, NormalizeLang(lang)), args).None? ==> r == Template(key, NormalizeLang(lang))
  {
    var template := Template(key, NormalizeLang(lang));
    match Format(template, args)
    case Some(s) => s
    case None => template
  }

  /** Every entry has a non-empty `zh` and `en` template, neither starting with a brace.
      The keys are checked in groups of five, one helper lemma per group, so that each proof
      obligation only unfolds a few string literals of the table at a time. */
  lemma TableComplete(key: string)
    ensures key in Messages ==> Plain(Messages[key].zh) && Plain(Messages[key].en)
  {
    if key == "must_use_in_server" || key == "use_channel" || key == "api_not_config" || key == "already_verified" || key == "auth_failed_500" {
      TemplatesPlain0(key);
    }
    else if key == "auth_failed_generic" || key == "auth_success" || key == "setup_complete" || key == "lang_prompt" || key == "lang_set_zh" {
      TemplatesPlain1(key);
    }
    else if key == "lang_set_en" || key == "missing_admin" || key == "guild_not_found" || key == "role_create_failed" || key == "role_permission_denied" {
      TemplatesPlain2(key);
    }
    else if key == "role_assign_failed" || key == "modal_title" || key == "modal_login_label" || key == "modal_login_placeholder" || key == "modal_password_label" {
      TemplatesPlain3(key);
    }
    else if key == "auth_request_failed" || key == "auth_partial_success" || key == "revoke_success" || key == "revoke_role_removed" || key == "revoke_record_cleared" {
      TemplatesPlain4(key);
    }
    else if key == "generic_error" {
      TemplatesPlain5(key);
    }
  }

  lemma TemplatesPlain0(key: string)
    requires key == "must_use_in_server" || key == "use_channel" || key == "api_not_config" || key == "already_verified" || key == "auth_failed_500"
    ensures key in Messages && Plain(Messages[key].zh) && Plain(Messages[key].en)
  {
  }

  lemma TemplatesPlain1(key: string)
    requires key == "auth_failed_generic" || key == "auth_success" || key == "setup_complete" || key == "lang_prompt" || key == "lang_set_zh"
    ensures key in Messages && Plain(Messages[key].zh) && Plain(Messages[key].en)
  {
  }

  lemma TemplatesPlain2(key: string)
    requires key == "lang_set_en" || key == "missing_admin" || key == "guild_not_found" || key == "role_create_failed" || key == "role_permission_denied"
    ensures key in Messages && Plain(Messages[key].zh) && Plain(Messages[key].en)
  {
  }

  lemma TemplatesPlain3(key: string)
    requires key == "role_assign_failed" || key == "modal_title" || key == "modal_login_label" || key == "modal_login_placeholder" || key == "modal_password_label"
    ensures key in Messages && Plain(Messages[key].zh) && Plain(Messages[key].en)
  {
  }

  lemma TemplatesPlain4(key: string)
    requires key == "auth_request_failed" || key == "auth_partial_success" || key == "revoke_success" || key == "revoke_role_removed" || key == "revoke_record_cleared"
    ensures key in Messages && Plain(Messages[key].zh) && Plain(Messages[key].en)
  {
  }

  lemma TemplatesPlain5(key: string)
    requires key == "generic_error"
    ensures key in Messages && Plain(Messages[key].zh) && Plain(Messages[key].en)
  {
  }

  /** A known key never falls back to the raw key: the template comes from its bundle,
      in the requested language when that is Chinese or English and in English otherwise. */
  lemma KnownKeyUsesBundle(key: string, lang: Option<string>)
    requires key in Messages
    ensures var l := NormalizeLang(lang);
      Template(key, l) == if l == "zh" then Messages[key].zh else Messages[key].en
  {
  }

  /** Without a language, or with an empty one, messages come out in Chinese. */
  lemma MissingLangIsChinese(key: string, args: map<string, string>)
    ensures T(key, None, args) == T(key, Some("zh"), args) == T(key, Some(""), args)
  {
    assert NormalizeLang(Some("zh")) == "zh";
  }

  /** An unknown key whose text has no braces comes back as itself. */
  lemma UnknownKeyIsItself(key: string, lang: Option<string>, args: map<string, string>)
    requires key !in Messages && '{' !in key && '}' !in key
    ensures T(key, lang, args) == key
  {
    BraceFreeFormatsToItself(key, args);
  }

  /** A template with no placeholders is returned unchanged, whatever the arguments. */
  lemma NoPlaceholdersUnchanged(key: string, lang: Option<string>, args: map<string, string>)
    requires var tpl := Template(key, NormalizeLang(lang)); '{' !in tpl && '}' !in tpl
    ensures T(key, lang, args) == Template(key, NormalizeLang(lang))
  {
    BraceFreeFormatsToItself(Template(key, NormalizeLang(lang)), args);
  }

  /** A placeholder without a matching argument makes `t` return the template unformatted. */
  lemma MissingArgumentKeepsTemplate(key: string, lang: Option<string>, args: map<string, string>, name: string)
    requires var tpl := Template(key, NormalizeLang(lang));
      Parse(tpl).Some? && name in FieldNames(Parse(tpl).value) && name !in args
    ensures T(key, lang, args) == Template(key, NormalizeLang(lang))
  {
    RenderDefined(Parse(Template(key, NormalizeLang(lang))).value, args);
  }

  /** When every placeholder has an argument, `t` returns the substituted text, and that
      text with the substitution undone (each field printed back) is the template. */
  lemma AllArgumentsSubstituted(key: string, lang: Option<string>, args: map<string, string>)
    requires var tpl := Template(key, NormalizeLang(lang));
      Parse(tpl).Some? && FieldNames(Parse(tpl).value) <= args.Keys
    ensures var tpl := Template(key, NormalizeLang(lang));
      Render(Parse(tpl).value, args).Some? &&
      T(key, lang, args) == Render(Parse(tpl).value, args).value && Unparse(Parse(tpl).value) == tpl
  {
    var tpl := Template(key, NormalizeLang(lang));
    RenderDefined(Parse(tpl).value, args);
    ParseThenUnparse(tpl);
  }

  /** A message for a known key is never empty. */
  lemma KnownKeyNonEmpty(key: string, lang: Option<string>, args: map<string, string>)
    requires key in Messages
    ensures T(key, lang, args) != []
  {
    TableComplete(key);
    var tpl := Template(key, NormalizeLang(lang));
    FormatKeepsLeadingText(tpl, args);
  }
}

=== FILE: json.dfy ===
/** JSON values as Python's `json` module hands them over (integers only; no floats),
    with the Python builtins the bot applies to them: truthiness, `str()` and `int()`. */
module JsonValue {
  import opened Wrappers
  import opened Text

  datatype Json =
    | JNull
    | JBool(b: bool)
    | JNum(n: int)
    | JStr(s: string)
    | JArr(items: seq<Json>)
    | JObj(fields: map<string, Json>)

  /** Python's `bool(v)`: `None`, `False`, `0`, `""`, `[]` and `{}` are false. */
  predicate Truthy(j: Json) {
    match j
    case JNull => false
    case JBool(b) => b
    case JNum(n) => n != 0
    case JStr(s) => s != []
    case JArr(items) => items != []
    case JObj(fields) => fields != map[]
  }

  /** The Python type name, as it appears in error messages. */
  function TypeName(j: Json): string {
    match j
    case JNull => "NoneType"
    case JBool(_) => "bool"
    case JNum(_) => "int"
    case JStr(_) => "str"
    case JArr(_) => "list"
    case JObj(_) => "dict"
  }

  /** Python's `str(v)` for the scalar values; lists and dictionaries are not rendered here. */
  function Str(j: Json): (r: Option<string>)
    ensures r.Some? <==> !j.JArr? && !j.JObj?
    ensures j.JStr? ==> r == Some(j.s)
  {
    match j
    case JNull => Some("None")
    case JBool(b) => Some(if b then "True" else "False")
    case JNum(n) => Some(IntToDecimal(n))
    case JStr(s) => Some(s)
    case _ => None
  }

  /** Python's `int(v)`; `None` stands for the `TypeError` or `ValueError` it raises. */
  function ToInt(j: Json): (r: Option<int>)
    ensures j.JNum? ==> r == Some(j.n)
    ensures j.JNull? || j.JArr? || j.JObj? ==> r.None?
  {
    match j
    case JBool(b) => Some(if b then 1 else 0)
    case JNum(n) => Some(n)
    case JStr(s) => ParseInt(s)
    case _ => None
  }

  /** `int(str(v)) == v` for every JSON integer: a number sent as its decimal string reads back unchanged. */
  lemma IntOfStrOfInt(n: int)
    ensures ToInt(JStr(Str(JNum(n)).value)) == Some(n)
  {
    IntRoundTrip(n);
  }
}

=== FILE: prefs.dfy ===
/** Language preferences, kept in the `"lang"` sub-map of each guild of the store. */
module Prefs {
  import opened Storage
  import I18n

  /** `set_lang`: an upsert of the member's language in guild g. Afterwards `get_lang` gives it back;
      the `"verified"` sub-maps, other members and other guilds are untouched. */
  function SetLang(db: Db, g: int, u: int, lang: string): (r: Db)
    ensures GetLang(r, g, u) == lang
    ensures forall g', u' | g' != g || u' != u :: GetLang(r, g', u') == GetLang(db, g', u')
    ensures forall g' :: Entry(r, g').verified == Entry(db, g').verified
    ensures forall g', u' :: IsVerified(r, g', u') == IsVerified(db, g', u')
  {
    var e := Entry(db, g);
    Db(db.guilds[g := e.(lang := e.lang[u := lang])])
  }

  /** `get_lang`: the stored language, `"zh"` when none is stored. */
  function GetLang(db: Db, g: int, u: int): (r: string)
    ensures u !in Entry(db, g).lang ==> r == I18n.DefaultLang
  {
    var langs := Entry(db, g).lang;
    if u in langs then langs[u] else I18n.DefaultLang
  }

  /** A later `set_lang` overwrites an earlier one for the same member. */
  lemma SetLangOverwrites(db: Db, g: int, u: int, l1: string, l2: string)
    ensures SetLang(SetLang(db, g, u, l1), g, u, l2) == SetLang(db, g, u, l2)
  {
    var e := Entry(db, g);
    assert e.lang[u := l1][u := l2] == e.lang[u := l2];
  }

  /** A member with no stored preference reads `"zh"`, as does everyone in a missing or
      unparsable data file. */
  lemma UnsetLangIsChinese(f: DataFile, g: int, u: int)
    requires !f.Stored?
    ensures GetLang(LoadDb(f), g, u) == I18n.DefaultLang
  {
  }

  /** Preferences are per guild: setting one in guild g, including the guild-0 key used
      outside any guild, does not change what any other guild reads. */
  lemma PerGuild(db: Db, g: int, g': int, u: int, lang: string)
    requires g != g'
    ensures GetLang(SetLang(db, g, u, lang), g', u) == GetLang(db, g', u)
  {
  }

  /** The two sibling sub-maps are independent: recording a verification and setting a
      language, for any members, commute. */
  lemma MarkAndSetLangCommute(db: Db, g: int, u: int, rec: Record, h: int, v: int, lang: string)
    ensures MarkVerified(SetLang(db, h, v, lang), g, u, rec) == SetLang(MarkVerified(db, g, u, rec), h, v, lang)
  {
    if g == h {
      var e := Entry(db, g);
      assert Entry(SetLang(db, h, v, lang), g) == e.(lang := e.lang[v := lang]);
      assert Entry(MarkVerified(db, g, u, rec), h) == e.(verified := e.verified[u := rec]);
    } else {
      assert db.guilds[h := Entry(db, h).(lang := Entry(db, h).lang[v := lang])][g := Entry(db, g).(verified := Entry(db, g).verified[u := rec])]
          == db.guilds[g := Entry(db, g).(verified := Entry(db, g).verified[u := rec])][h := Entry(db, h).(lang := Entry(db, h).lang[v := lang])];
    }
  }
}

=== FILE: pyformat.dfy ===
/** The part of Python's `str.format(**kwargs)` the message table uses: literal text,
    `{name}` fields looked up by keyword, and the `{{` / `}}` escapes. A template is first
    parsed into pieces, then rendered against the keyword arguments; either step may fail,
    which Python reports by raising. */
module PyFormat {
  import opened Wrappers
  import opened Text

  datatype Piece = Lit(c: char) | Field(name: string)

  /** A keyword field name: non-empty, brace-free, and not all digits (an all-digit name
      would select a positional argument, and `t` passes none). */
  predicate ValidName(n: string) {
    n != [] && '{' !in n && '}' !in n && !AllDigits(n)
  }

  predicate WellFormed(ps: seq<Piece>) {
    forall i :: 0 <= i < |ps| ==> ps[i].Field? ==> ValidName(ps[i].name)
  }

  /** The first `}` at or after position `i`. */
  function CloseAt(s: string, i: nat): (r: Option<nat>)
    requires i <= |s|
    ensures r.Some? ==> i <= r.value < |s| && s[r.value] == '}'
    ensures r.Some? ==> forall k :: i <= k < r.value ==> s[k] != '}'
    ensures r.None? ==> forall k :: i <= k < |s| ==> s[k] != '}'
    decreases |s| - i
  {
    if i == |s| then None
    else if s[i] == '}' then Some(i)
    else CloseAt(s, i + 1)
  }

  function Cons(p: Piece, rest: Option<seq<Piece>>): Option<seq<Piece>> {
    if rest.Some? then Some([p] + rest.value) else None
  }

  /** Splits a template into pieces; `None` when Python's parser would raise
      (a lone `}`, an unclosed `{`, or a field that is not a keyword name). */
  function Parse(s: string): (r: Option<seq<Piece>>)
    ensures r.Some? ==> WellFormed(r.value)
    decreases |s|
  {
    if s == [] then Some([])
    else if s[0] == '{' then
      if |s| > 1 && s[1] == '{' then Cons(Lit('{'), Parse(s[2..]))
      else
        match CloseAt(s, 1)
        case None => None
        case Some(j) =>
          if ValidName(s[1..j]) then Cons(Field(s[1..j]), Parse(s[j + 1..])) else None
    else if s[0] == '}' then
      if |s| > 1 && s[1] == '}' then Cons(Lit('}'), Parse(s[2..])) else None
    else Cons(Lit(s[0]), Parse(s[1..]))
  }

  /** The template text of a sequence of pieces, braces escaped. */
  function Unparse(ps: seq<Piece>): string {
    if ps == [] then []
    else
      var head := match ps[0]
        case Lit(c) => if c == '{' || c == '}' then [c, c] else [c]
        case Field(n) => "{" + n + "}";
      head + Unparse(ps[1..])
  }

  /** The field names a template refers to. */
  function FieldNames(ps: seq<Piece>): set<string> {
    if ps == [] then {}
    else (if ps[0].Field? then {ps[0].name} else {}) + FieldNames(ps[1..])
  }

  /** Substitutes keyword arguments into pieces; `None` is the `KeyError` of a missing one. */
  function Render(ps: seq<Piece>, args: map<string, string>): Option<string> {
    if ps == [] then Some([])
    else
      var head: Option<string> :=
        if ps[0].Lit? then Some([ps[0].c])
        else if ps[0].name in args then Some(args[ps[0].name])
        else None;
      if head.None? then None
      else
        match Render(ps[1..], args)
        case None => None
        case Some(rest) => Some(head.value + rest)
  }

  /** `template.format(**args)`, or `None` where Python raises. */
  function Format(template: string, args: map<string, string>): (r: Option<string>)
    ensures r.Some? <==> Parse(template).Some? && FieldNames(Parse(template).value) <= args.Keys
  {
    match Parse(template)
    case None => None
    case Some(ps) => RenderDefined(ps, args); Render(ps, args)
  }

  /** Rendering succeeds exactly when every field has an argument; unused arguments are ignored. */
  lemma {:induction false} RenderDefined(ps: seq<Piece>, args: map<string, string>)
    ensures Render(ps, args).Some? <==> FieldNames(ps) <= args.Keys
    decreases |ps|
  {
    if ps != [] {
      RenderDefined(ps[1..], args);
    }
  }

  lemma SplitAround(s: string, j: nat)
    requires 0 < j < |s|
    ensures s == [s[0]] + s[1..j] + [s[j]] + s[j + 1..]
  {
    assert s[..j] == [s[0]] + s[1..j];
    assert s[j..] == [s[j]] + s[j + 1..];
    assert s == s[..j] + s[j..];
  }

  /** Parsing loses nothing: the pieces print back to the template they came from. */
  lemma {:induction false} ParseThenUnparse(s: string)
    requires Parse(s).Some?
    ensures Unparse(Parse(s).value) == s
    decreases |s|
  {
    var ps := Parse(s).value;
    if s != [] {
      if s[0] == '{' && |s| > 1 && s[1] == '{' {
        ParseThenUnparse(s[2..]);
        assert ps[1..] == Parse(s[2..]).value;
        assert s == [s[0], s[1]] + s[2..];
      } else if s[0] == '{' {
        var j := CloseAt(s, 1).value;
        var name := s[1..j];
        assert ps == [Field(name)] + Parse(s[j + 1..]).value;
        assert ps[1..] == Parse(s[j + 1..]).value;
        ParseThenUnparse(s[j + 1..]);
        assert Unparse(ps) == "{" + name + "}" + s[j + 1..];
        SplitAround(s, j);
      } else if s[0] == '}' {
        ParseThenUnparse(s[2..]);
        assert ps[1..] == Parse(s[2..]).value;
        assert s == [s[0], s[1]] + s[2..];
      } else {
        ParseThenUnparse(s[1..]);
        assert ps[1..] == Parse(s[1..]).value;
        assert s == [s[0]] + s[1..];
      }
    }
  }

  /** The field closes at the first `}`, which for a brace-free name is the one right after it. */
  lemma CloseAfterName(n: string, rest: string)
    requires '}' !in n
    ensures CloseAt("{" + n + "}" + rest, 1) == Some(|n| + 1)
  {
    var s := "{" + n + "}" + rest;
    assert s[|n| + 1] == '}';
    forall k | 1 <= k < |n| + 1
      ensures s[k] != '}'
    {
      assert s[k] == n[k - 1];
    }
  }

  /** Printing well-formed pieces and parsing the text gives the same pieces back. */
  lemma {:induction false} UnparseThenParse(ps: seq<Piece>)
    requires WellFormed(ps)
    ensures Parse(Unparse(ps)) == Some(ps)
    decreases |ps|
  {
    if ps != [] {
      var p, tail := ps[0], ps[1..];
      assert WellFormed(tail) by {
        forall i | 0 <= i < |tail| && tail[i].Field?
          ensures ValidName(tail[i].name)
        {
          assert tail[i] == ps[i + 1];
        }
      }
      UnparseThenParse(tail);
      assert ps == [p] + tail;
      UnparseOfCons(p, tail);
      match p
      case Lit(c) =>
        LitThenParse(c, tail, Unparse(tail));
      case Field(n) =>
        assert ValidName(n);
        FieldThenParse(n, tail, Unparse(tail));
    }
  }

  /** Printing is piecewise: the text of `[p] + tail` is the text of `p`, then of `tail`. */
  lemma UnparseOfCons(p: Piece, tail: seq<Piece>)
    ensures Unparse([p] + tail) == Unparse([p]) + Unparse(tail)
  {
    assert ([p] + tail)[1..] == tail;
    assert [p][1..] == [];
    assert Unparse([]) == [];
  }

  /** A printed literal followed by text that parses to `tail` parses to the literal, then `tail`. */
  lemma LitThenParse(c: char, tail: seq<Piece>, rest: string)
    requires Parse(rest) == Some(tail)
    ensures Parse(Unparse([Lit(c)]) + rest) == Some([Lit(c)] + tail)
  {
    var s := Unparse([Lit(c)]) + rest;
    assert [Lit(c)][1..] == [];
    assert Unparse([]) == [];
    if c == '{' || c == '}' {
      assert Unparse([Lit(c)]) == [c, c] + Unparse([]);
      assert s == [c, c] + rest;
      assert s[2..] == rest;
    } else {
      assert Unparse([Lit(c)]) == [c] + Unparse([]);
      assert s == [c] + rest;
      assert s[1..] == rest;
    }
  }

  /** A printed field followed by text that parses to `tail` parses to the field, then `tail`. */
  lemma FieldThenParse(n: string, tail: seq<Piece>, rest: string)
    requires ValidName(n) && Parse(rest) == Some(tail)
    ensures Parse(Unparse([Field(n)]) + rest) == Some([Field(n)] + tail)
  {
    assert [Field(n)][1..] == [];
    assert Unparse([]) == [];
    assert Unparse([Field(n)]) == "{" + n + "}" + Unparse([]);
    var s := "{" + n + "}" + rest;
    CloseAfterName(n, rest);
    assert s[0] == '{' && s[1] == n[0] && s[1] != '{';
    assert s[1..|n| + 1] == n;
    assert s[|n| + 2..] == rest;
    assert Parse(s) == Cons(Field(n), Parse(rest));
    assert Unparse([Field(n)]) + rest == s;
  }

  /** A template without braces is all literal text, so it formats to itself whatever the arguments. */
  lemma {:induction false} BraceFreeFormatsToItself(s: string, args: map<string, string>)
    requires '{' !in s && '}' !in s
    ensures Format(s, args) == Some(s)
    decreases |s|
  {
    if s != [] {
      BraceFreeFormatsToItself(s[1..], args);
      assert s == [s[0]] + s[1..];
    }
  }

  /** A template whose first character is not a brace formats (when it formats at all)
      to text starting with that character, so never to the empty string. */
  lemma FormatKeepsLeadingText(s: string, args: map<string, string>)
    requires s != [] && s[0] != '{' && s[0] != '}'
    ensures Format(s, args).Some? ==> Format(s, args).value != [] && Format(s, args).value[0] == s[0]
  {
  }
}

=== FILE: storage.dfy ===
/** The verification store. The whole store is one nested document,
    `{"guilds": {gid: {"verified": {uid: record}, "lang": {uid: lang}}}}`, loaded before and
    saved after every operation; here it is an immutable value passed in and returned.
    Guild and user ids are the document's keys (`str(id)` in the file, a one-to-one encoding). */
module Storage {
  import opened Wrappers
  import opened JsonValue

  /** What the login flow stores for a verified member: `{"username": ...}` and nothing else. */
  datatype Record = Record(username: Json)

  /** One guild's document. A missing `"verified"` or `"lang"` sub-map reads as empty,
      so it is represented by the empty map. */
  datatype GuildEntry = GuildEntry(verified: map<int, Record>, lang: map<int, string>)

  datatype Db = Db(guilds: map<int, GuildEntry>)

  const EmptyGuild: GuildEntry := GuildEntry(map[], map[])

  /** `{"guilds": {}}`. */
  const EmptyDb: Db := Db(map[])

  /** `db.get("guilds", {}).get(str(g), {})`. */
  function Entry(db: Db, g: int): GuildEntry {
    if g in db.guilds then db.guilds[g] else EmptyGuild
  }

  function RecordOf(db: Db, g: int, u: int): Option<Record> {
    var v := Entry(db, g).verified;
    if u in v then Some(v[u]) else None
  }

  /** `is_verified`: the member has a record in the guild's `"verified"` map. */
  predicate IsVerified(db: Db, g: int, u: int)
    ensures IsVerified(db, g, u) <==> RecordOf(db, g, u).Some?
    ensures g !in db.guilds ==> !IsVerified(db, g, u)
  {
    u in Entry(db, g).verified
  }

  /** The data file as `load_db` finds it. */
  datatype DataFile = Missing | Unparsable | Stored(db: Db)

  /** `load_db`: a missing or unparsable file loads as the empty store, in which nobody is verified. */
  function LoadDb(f: DataFile): (db: Db)
    ensures f.Stored? ==> db == f.db
    ensures !f.Stored? ==> forall g, u :: !IsVerified(db, g, u)
  {
    if f.Stored? then f.db else EmptyDb
  }

  /** `save_db` followed by `load_db` gives back the saved store. */
  function SaveDb(db: Db): (f: DataFile)
    ensures LoadDb(f) == db
  {
    Stored(db)
  }

  /** `mark_verified`: an upsert of the record under (g, u). Afterwards the member is verified
      with exactly that record, every other (guild, user) keeps its record, no language
      preference changes, and the guild's record count grows by one only for a new member. */
  function MarkVerified(db: Db, g: int, u: int, rec: Record): (r: Db)
    ensures IsVerified(r, g, u) && RecordOf(r, g, u) == Some(rec)
    ensures forall g', u' | g' != g || u' != u :: RecordOf(r, g', u') == RecordOf(db, g', u')
    ensures forall g' :: Entry(r, g').lang == Entry(db, g').lang
    ensures |Entry(r, g).verified| == |Entry(db, g).verified| + (if IsVerified(db, g, u) then 0 else 1)
  {
    var e := Entry(db, g);
    UpdateCount(e.verified, u, rec);
    Db(db.guilds[g := e.(verified := e.verified[u := rec])])
  }

  /** Storing under a key grows a map by one entry exactly when the key is new. */
  lemma UpdateCount<K, V>(m: map<K, V>, k: K, v: V)
    ensures |m[k := v]| == |m| + (if k in m then 0 else 1)
  {
    if k in m {
      assert m[k := v].Keys == m.Keys;
    } else {
      assert m[k := v].Keys == m.Keys + {k};
    }
  }

  /** `revoke_verified`: deletes the record under (g, u) and reports whether there was one.
      A missing or empty guild reports false; when nothing is deleted the store is returned
      as it was (the source does not save in that case). Nothing else changes. */
  function RevokeVerified(db: Db, g: int, u: int): (r: (bool, Db))
    ensures r.0 <==> IsVerified(db, g, u)
    ensures !IsVerified(r.1, g, u)
    ensures !r.0 ==> r.1 == db
    ensures forall g', u' | g' != g || u' != u :: RecordOf(r.1, g', u') == RecordOf(db, g', u')
    ensures forall g' :: Entry(r.1, g').lang == Entry(db, g').lang
    ensures r.0 ==> |Entry(r.1, g).verified| == |Entry(db, g).verified| - 1
  {
    if g !in db.guilds || db.guilds[g] == EmptyGuild then (false, db)
    else
      var e := db.guilds[g];
      if u in e.verified then
        var verified := e.verified - {u};
        assert verified.Keys == e.verified.Keys - {u};
        (true, Db(db.guilds[g := e.(verified := verified)]))
      else (false, db)
  }

  /** After `mark_verified`, `is_verified` holds and the stored record is the new one,
      whatever was stored before: writing twice keeps only the second record. */
  lemma MarkTwiceKeepsLast(db: Db, g: int, u: int, r1: Record, r2: Record)
    ensures MarkVerified(MarkVerified(db, g, u, r1), g, u, r2) == MarkVerified(db, g, u, r2)
  {
    var e := Entry(db, g);
    assert e.verified[u := r1][u := r2] == e.verified[u := r2];
  }

  /** `revoke_verified` is idempotent: a second call finds nothing, reports false and leaves the store alone. */
  lemma RevokeIdempotent(db: Db, g: int, u: int)
    ensures var once := RevokeVerified(db, g, u).1;
      RevokeVerified(once, g, u) == (false, once)
  {
  }

  /** Marking then revoking reports a deletion and leaves every record as it was before
      the mark, except that (g, u) now has none. */
  lemma MarkThenRevoke(db: Db, g: int, u: int, rec: Record)
    ensures var r := RevokeVerified(MarkVerified(db, g, u, rec), g, u);
      && r.0
      && RecordOf(r.1, g, u).None?
      && forall g', u' | g' != g || u' != u :: RecordOf(r.1, g', u') == RecordOf(db, g', u')
  {
  }

  /** A missing or empty guild: `revoke_verified` reports false and changes nothing. */
  lemma RevokeInEmptyGuild(db: Db, g: int, u: int)
    requires g !in db.guilds || db.guilds[g] == EmptyGuild
    ensures RevokeVerified(db, g, u) == (false, db)
  {
  }
}

=== FILE: text.dfy ===
/** Python string helpers the bot relies on: `str.strip()`, ASCII lower-casing,
    `rstrip("/")`, decimal rendering of integers and the `int()` parser for strings. */
module Text {
  import opened Wrappers

  /** Python's `str.isspace()`: the characters `strip()` removes. */
  predicate IsSpace(c: char) {
    || c == ' '
    || '\U{9}' <= c <= '\U{d}'
    || '\U{1c}' <= c <= '\U{1f}'
    || c == '\U{85}' || c == '\U{a0}' || c == '\U{1680}'
    || '\U{2000}' <= c <= '\U{200a}'
    || c == '\U{2028}' || c == '\U{2029}' || c == '\U{202f}' || c == '\U{205f}' || c == '\U{3000}'
  }

  predicate AllSpace(s: string) {
    forall i :: 0 <= i < |s| ==> IsSpace(s[i])
  }

  /** Neither the first nor the last character is whitespace. */
  predicate Trimmed(s: string) {
    s == [] || (!IsSpace(s[0]) && !IsSpace(s[|s| - 1]))
  }

  /** `s.lstrip()`: the longest suffix of `s` that does not start with whitespace. */
  function StripLeft(s: string): (r: string)
    ensures |r| <= |s| && r == s[|s| - |r|..]
    ensures r == [] || !IsSpace(r[0])
    ensures AllSpace(s[..|s| - |r|])
  {
    if s != [] && IsSpace(s[0]) then
      var r := StripLeft(s[1..]);
      assert s[..|s| - |r|] == [s[0]] + s[1..][..|s| - 1 - |r|];
      r
    else s
  }

  /** `s.rstrip()`: the longest prefix of `s` that does not end with whitespace. */
  function StripRight(s: string): (r: string)
    ensures r <= s
    ensures r == [] || !IsSpace(r[|r| - 1])
    ensures AllSpace(s[|r|..])
  {
    if s != [] && IsSpace(s[|s| - 1]) then
      var r := StripRight(s[..|s| - 1]);
      assert s[|r|..] == s[..|s| - 1][|r|..] + [s[|s| - 1]];
      r
    else s
  }

  /** `s.strip()`: leading and trailing whitespace removed. */
  function Strip(s: string): (r: string)
    ensures Trimmed(r) && |r| <= |s|
  {
    StripRight(StripLeft(s))
  }

  lemma {:induction false} StripLeftSpaces(pre: string, s: string)
    requires AllSpace(pre)
    ensures StripLeft(pre + s) == StripLeft(s)
    decreases |pre|
  {
    if pre != [] {
      assert (pre + s)[0] == pre[0];
      assert (pre + s)[1..] == pre[1..] + s;
      StripLeftSpaces(pre[1..], s);
    } else {
      assert pre + s == s;
    }
  }

  /** Leading whitespace before a word that starts with a non-space is exactly what `lstrip` cuts. */
  lemma StripLeftAt(pre: string, w: string)
    requires AllSpace(pre) && w != [] && !IsSpace(w[0])
    ensures StripLeft(pre + w) == w
  {
    StripLeftSpaces(pre, w);
  }

  lemma {:induction false} StripRightSpaces(s: string, post: string)
    requires AllSpace(post)
    ensures StripRight(s + post) == StripRight(s)
    decreases |post|
  {
    if post != [] {
      assert (s + post)[|s + post| - 1] == post[|post| - 1];
      assert (s + post)[..|s + post| - 1] == s + post[..|post| - 1];
      StripRightSpaces(s, post[..|post| - 1]);
    } else {
      assert s + post == s;
    }
  }

  /** Stripping removes exactly the whitespace padding around a trimmed word. */
  lemma StripPadded(pre: string, w: string, post: string)
    requires AllSpace(pre) && AllSpace(post) && Trimmed(w)
    ensures Strip(pre + w + post) == w
  {
    var s := pre + w + post;
    assert s == pre + (w + post);
    if w == [] {
      assert s == (pre + post) + [];
      assert AllSpace(pre + post);
      StripLeftSpaces(pre + post, []);
      assert StripLeft(s) == [];
    } else {
      assert (w + post)[0] == w[0];
      StripLeftAt(pre, w + post);
      assert StripLeft(s) == w + post;
      StripRightSpaces(w, post);
      assert StripRight(w) == w;
    }
  }

  /** A string with no whitespace at either end is its own `strip()`. */
  lemma StripTrimmed(w: string)
    requires Trimmed(w)
    ensures Strip(w) == w
  {
    StripPadded([], w, []);
    assert [] + w + [] == w;
  }

  function LowerChar(c: char): char {
    if 'A' <= c <= 'Z' then (c as int + 32) as char else c
  }

  /** `s.lower()` on ASCII letters; every other character is kept. Python's Unicode `lower()`
      also maps non-ASCII letters, but the only one it maps into ASCII is the Kelvin sign
      U+212A, which becomes `k`; no word `_truthy` accepts contains `k`, so for that use the
      two agree. */
  function LowerAscii(s: string): (r: string)
    ensures |r| == |s|
  {
    seq(|s|, i requires 0 <= i < |s| => LowerChar(s[i]))
  }

  /** `s.rstrip("/")`: the longest prefix of `s` not ending in `/`; what is cut is all slashes. */
  function StripTrailingSlashes(s: string): (r: string)
    ensures r <= s
    ensures r == [] || r[|r| - 1] != '/'
    ensures forall i :: |r| <= i < |s| ==> s[i] == '/'
  {
    if s != [] && s[|s| - 1] == '/' then StripTrailingSlashes(s[..|s| - 1]) else s
  }

  predicate IsDigit(c: char) {
    '0' <= c <= '9'
  }

  predicate AllDigits(s: string) {
    forall i :: 0 <= i < |s| ==> IsDigit(s[i])
  }

  function DigitChar(d: nat): (c: char)
    requires d < 10
    ensures IsDigit(c)
  {
    (48 + d) as char
  }

  /** The value of a decimal digit (0 for any other character, which never reaches it). */
  function DigitValue(c: char): nat {
    if IsDigit(c) then c as int - 48 else 0
  }

  /** Python's `str(n)` for a natural number: its decimal digits, most significant first. */
  function NatToDecimal(n: nat): (r: string)
    ensures r != [] && AllDigits(r)
    ensures n > 0 ==> r[0] != '0'
  {
    if n < 10 then [DigitChar(n)] else NatToDecimal(n / 10) + [DigitChar(n % 10)]
  }

  /** The number a string of decimal digits denotes. */
  function DecimalValue(s: string): nat {
    if s == [] then 0 else DecimalValue(s[..|s| - 1]) * 10 + DigitValue(s[|s| - 1])
  }

  /** Python's `str(i)` for any integer. */
  function IntToDecimal(i: int): (r: string)
    ensures r != [] && (AllDigits(r) || (r[0] == '-' && AllDigits(r[1..])))
  {
    if i < 0 then "-" + NatToDecimal(-i) else NatToDecimal(i)
  }

  lemma {:induction false} DecimalRoundTrip(n: nat)
    ensures DecimalValue(NatToDecimal(n)) == n
  {
    if n >= 10 {
      var s := NatToDecimal(n);
      assert s[..|s| - 1] == NatToDecimal(n / 10);
      DecimalRoundTrip(n / 10);
    }
  }

  /** The body of an integer literal accepted by Python's `int()`: digits, with single
      underscores allowed between two digits. */
  predicate DigitGroups(s: string) {
    && s != []
    && IsDigit(s[0]) && IsDigit(s[|s| - 1])
    && (forall i :: 0 <= i < |s| ==> IsDigit(s[i]) || s[i] == '_')
    && (forall i :: 0 <= i < |s| - 1 ==> s[i] == '_' ==> s[i + 1] != '_')
  }

  /** The digits of a literal with its group separators removed. */
  function DropUnderscores(s: string): (r: string)
    ensures '_' !in r
    ensures AllDigits(s) ==> r == s
  {
    if s == [] then []
    else if s[0] == '_' then DropUnderscores(s[1..])
    else [s[0]] + DropUnderscores(s[1..])
  }

  /** Python's `int(s)` for a string, base 10: surrounding whitespace is ignored, one optional
      sign, then digit groups. `None` stands for the `ValueError` it raises otherwise. */
  function ParseInt(s: string): Option<int> {
    ParseSigned(Strip(s))
  }

  /** `int()` on an already stripped string: an optional sign, then the literal's body. */
  function ParseSigned(t: string): Option<int> {
    if t != [] && t[0] == '-' then
      match ParseBody(t[1..])
      case None => None
      case Some(n) => Some(-n)
    else if t != [] && t[0] == '+' then ParseBody(t[1..])
    else ParseBody(t)
  }

  /** The unsigned body of an integer literal: digit groups, or nothing. */
  function ParseBody(b: string): Option<int> {
    if DigitGroups(b) then Some(DecimalValue(DropUnderscores(b))) else None
  }

  lemma DigitsAreGroups(d: string)
    requires d != [] && AllDigits(d)
    ensures DigitGroups(d) && DropUnderscores(d) == d
  {
  }

  /** A plain run of digits parses as the number it denotes. */
  lemma ParseDigits(d: string)
    requires d != [] && AllDigits(d)
    ensures ParseInt(d) == Some(DecimalValue(d))
  {
    DigitsTrimmed(d);
    SignedDigits(d);
  }

  lemma DigitsTrimmed(d: string)
    requires d != [] && AllDigits(d)
    ensures Strip(d) == d
  {
    assert IsDigit(d[0]) && IsDigit(d[|d| - 1]);
    StripTrimmed(d);
  }

  lemma SignedDigits(d: string)
    requires d != [] && AllDigits(d)
    ensures ParseSigned(d) == Some(DecimalValue(d))
  {
    assert IsDigit(d[0]);
    BodyOfDigits(d);
  }

  lemma BodyOfDigits(d: string)
    requires d != [] && AllDigits(d)
    ensures ParseBody(d) == Some(DecimalValue(d))
  {
    DigitsAreGroups(d);
  }

  /** A minus sign followed by digits parses as the negated number. */
  lemma ParseNegativeDigits(d: string)
    requires d != [] && AllDigits(d)
    ensures ParseInt("-" + d) == Some(-(DecimalValue(d) as int))
  {
    var s := "-" + d;
    SignThenDigits(s, d);
    assert s[|s| - 1] == d[|d| - 1] && IsDigit(d[|d| - 1]);
    StripTrimmed(s);
    NegativeSigned(d);
  }

  lemma NegativeSigned(d: string)
    requires d != [] && AllDigits(d)
    ensures ParseSigned("-" + d) == Some(-(DecimalValue(d) as int))
  {
    var t := "-" + d;
    SignThenDigits(t, d);
    BodyOfDigits(d);
    assert t != [] && t[0] == '-';
    assert ParseBody(t[1..]) == Some(DecimalValue(d));
  }

  /** `int(str(i)) == i`: the decimal rendering of an integer reads back as the same integer. */
  lemma IntRoundTrip(i: int)
    ensures ParseInt(IntToDecimal(i)) == Some(i)
  {
    if i < 0 {
      NegativeRoundTrip(i);
    } else {
      var d := NatToDecimal(i);
      ParseDigits(d);
      DecimalRoundTrip(i);
    }
  }

  lemma NegativeRoundTrip(i: int)
    requires i < 0
    ensures ParseInt(IntToDecimal(i)) == Some(i)
  {
    var n: nat := -i;
    assert IntToDecimal(i) == "-" + NatToDecimal(n);
    NegatedDecimal(n);
  }

  lemma NegatedDecimal(n: nat)
    ensures ParseInt("-" + NatToDecimal(n)) == Some(-(n as int))
  {
    var d := NatToDecimal(n);
    DecimalRoundTrip(n);
    ParseNegativeDigits(d);
  }

  lemma SignThenDigits(s: string, d: string)
    requires s == "-" + d && d != []
    ensures |s| > 1 && s[0] == '-' && s[1..] == d
  {
  }
}

=== FILE: wrappers.dfy ===
/** Failure-compatible wrappers used throughout the model: an optional value
    (Python's `None` or a value) and the outcome of a call that may raise. */
module Wrappers {

  datatype Option<+T> = None | Some(value: T) {
    /** The value, or `default` when there is none (Python's `x or default` on a present/absent value). */
    function GetOr(default: T): T {
      if Some? then value else default
    }
  }

  /** `Err` carries the text `str(e)` of the exception that was raised. */
  datatype Result<+T> = Ok(value: T) | Err(error: string)
}
